=== FILE: README.md ===
# Blob storage utilities of azure-key-vault, modelled in Dafny

This project models the storage gateway of the `azure-key-vault` application.
`M3AzureStorageUtils` stores, fetches, deletes and lists files, handles blob metadata and
hands out signed URLs. A connection string starting with `LOCAL` makes it work on a local
directory instead of the blob service. `M2AzureStorageUtils` is an older variant on the
reactive storage SDK, with its own credential format and success rule.

The model has these parts:

- `JavaLang` (`java_lang.dfy`): Java string references, which may be null and print as
  `"null"`; the exceptions that can leave the utilities; and how M3's `catch` clauses wrap
  them in `AzureException`.
- `JavaStrings`: `startsWith`, `contains`, `split` and `replace` for a literal delimiter.
  `split` drops trailing empty strings.
- `Paths`: paths as `java.io.File` keeps them on a Unix-like system. Repeated `/` collapse
  and a trailing `/` is dropped.
- `LocalStore`: the local file system.
  - A class `LocalFileSystem` holds regular files and directories; its methods model
    `mkdirs`, writing, reading, `delete` and `listFiles`.
  - Declarative specifications `Upload`, `Download` and `Remove` state what a local
    operation does to the whole tree.
- `Connection`: `isLocal`, `getLocalPath` and `getLocalBaseURL`, the local target
  `localPath/container/filePath`, and the local "signed" URL.
- `Listing`: `FileDetails`, the mapping of remote listing entries, the two listing passes,
  and the path rewrite of the local listing.
- `Sas`: the two signature policies and the signed URL format.
- `M3Storage`: the operations of `M3AzureStorageUtils`. Their local branches are proved
  against `Upload`, `Download`, `Remove`, `LocalTarget` and `LocalSasURL`. Their remote
  branches take what the SDK returned or threw as an input.
- `M2Storage`: the operations of `M2AzureStorageUtils`, that is, credential parsing, the
  service URL and the status-201 rule.

Some behaviours of the code worth knowing:

- Both signature policies expire 30 minutes after generation. The blob URL's window is not
  shorter than the directory URL's.
- A two-field local string such as `LOCAL;/base` is not rejected up front. Upload, download,
  delete and list work with it. Only the two URL operations fail, with an
  `ArrayIndexOutOfBoundsException`.
- A local string without any `;` yields a null base path, so the target becomes
  `null/container/filePath`.
- Not every failure is wrapped. `IllegalArgumentException` (metadata on a local string),
  `ArrayIndexOutOfBoundsException` and `NullPointerException` leave M3 unwrapped. M2 wraps
  nothing.
- A local listing answers null when the target does not exist. It throws
  `NullPointerException` when the target is a regular file.
- The local listing removes every occurrence of the container directory's text from the
  entry path, not only the leading one.
- Locally, deleting a directory that still has entries answers true and removes nothing.
- M2's `delete` reports success only for status 201, like its `uploadFile`.

## Model

| member | source | states |
|---|---|---|
| JavaLang.Translate | src/main/java/com/azure/keyvault/utils/M3AzureStorageUtils.java:158-161 | An exception is wrapped in AzureException exactly when the catch clause names it (IOException only for upload and download); any other exception passes through unchanged |
| Connection.IsLocal | src/main/java/com/azure/keyvault/utils/M3AzureStorageUtils.java:73-75 | `isLocal` holds exactly for a non-null string whose first five characters are `LOCAL` |
| Connection.LocalField | src/main/java/com/azure/keyvault/utils/M3AzureStorageUtils.java:82-93 | Field n of `split(";")`: null exactly when the string is null or has no `;`; ArrayIndexOutOfBoundsException exactly when the split has at most n fields; otherwise exactly field n of the split, which never contains `;` |
| Connection.GetLocalPath | src/main/java/com/azure/keyvault/utils/M3AzureStorageUtils.java:82-84 | `getLocalPath`: null exactly when the string is null or has no `;`; ArrayIndexOutOfBoundsException exactly when the split has fewer than two fields; otherwise exactly the second field of the split, which holds no `;` |
| Connection.GetLocalBaseURL | src/main/java/com/azure/keyvault/utils/M3AzureStorageUtils.java:91-93 | `getLocalBaseURL`: null and ArrayIndexOutOfBoundsException under the same conditions for three fields; otherwise exactly the third field of the split; whenever it succeeds, `getLocalPath` succeeds too |
| Connection.LocalFieldsOfDescriptor | src/main/java/com/azure/keyvault/utils/M3AzureStorageUtils.java:82-93 | For `marker;basePath;baseURL` with fields free of `;`, `getLocalPath` gives `basePath` and `getLocalBaseURL` gives `baseURL` |
| Connection.ExtraLocalFieldsIgnored | src/main/java/com/azure/keyvault/utils/M3AzureStorageUtils.java:82-93 | For `marker;basePath;baseURL;rest`, fields after the third are ignored: `getLocalPath` gives `basePath` and `getLocalBaseURL` gives `baseURL` |
| Connection.LongDescriptorSplits | src/main/java/com/azure/keyvault/utils/M3AzureStorageUtils.java:83 | A descriptor with more than three fields contains `;`, and `split(";")` starts with its first three fields |
| Connection.DescriptorSplits | src/main/java/com/azure/keyvault/utils/M3AzureStorageUtils.java:83 | A three-field descriptor contains `;` and `split(";")` gives exactly its three fields |
| Connection.TwoFieldDescriptor | src/main/java/com/azure/keyvault/utils/M3AzureStorageUtils.java:82-93 | With two fields, or with an empty third field, the base path is still found but the base URL throws ArrayIndexOutOfBoundsException |
| Connection.EmptyThirdFieldDropped | src/main/java/com/azure/keyvault/utils/M3AzureStorageUtils.java:92 | `split(";")` drops an empty third field, so `LOCAL;base;` has two fields |
| Connection.NoDelimiterGivesNull | src/main/java/com/azure/keyvault/utils/M3AzureStorageUtils.java:82-93 | Without `;` both fields are null and the target reads `null/container/filePath` |
| Connection.LocalTarget | src/main/java/com/azure/keyvault/utils/M3AzureStorageUtils.java:141 | The local target is the container directory, `/`, then the file path; it fails only when the base path does, and then with ArrayIndexOutOfBoundsException |
| Connection.LocalSasURL | src/main/java/com/azure/keyvault/utils/M3AzureStorageUtils.java:301-303 | The local URL: fails, with ArrayIndexOutOfBoundsException, exactly when the target or the base URL cannot be read; otherwise it is the base URL, `?filepath=` and the target with nothing between them (prefix, suffix and total length) |
| Connection.LocalSasURLOfDescriptor | src/main/java/com/azure/keyvault/utils/M3AzureStorageUtils.java:301-303 | For a three-field descriptor the target is `basePath/container/filePath` and the local URL is `baseURL?filepath=` followed by it |
| LocalStore.Upload | src/main/java/com/azure/keyvault/utils/M3AzureStorageUtils.java:140-150 | A local upload: on failure FileNotFoundException naming the normalised target; on success the target holds the data, the other files keep their contents, no file disappears, all directories stay, the target's ancestors are directories and only they are new |
| LocalStore.Download | src/main/java/com/azure/keyvault/utils/M3AzureStorageUtils.java:329-335 | Reading a file: succeeds exactly when a regular file is at the normalised path, and then gives its contents; otherwise FileNotFoundException naming that path |
| LocalStore.Remove | src/main/java/com/azure/keyvault/utils/M3AzureStorageUtils.java:268-277 | A local delete: answers whether anything existed at the path; the file there is gone and every other file keeps its contents; a directory there is removed exactly when nothing is below it, and no other directory changes |
| LocalStore.UploadSucceedsIff | src/main/java/com/azure/keyvault/utils/M3AzureStorageUtils.java:142-147 | A local upload succeeds exactly when the target is not a directory and no directory on the way to it is a regular file |
| LocalStore.UploadKeepsWellFormed | src/main/java/com/azure/keyvault/utils/M3AzureStorageUtils.java:140-150 | An upload keeps the file system a tree: every file and directory sits inside existing directories, and nothing is both |
| LocalStore.UploadThenDownload | src/main/java/com/azure/keyvault/utils/M3AzureStorageUtils.java:140-150 | After an upload, reading the same path gives exactly the uploaded bytes, and every other path reads as before |
| LocalStore.UploadThroughEquivalentPath | src/main/java/com/azure/keyvault/utils/M3AzureStorageUtils.java:142 | Paths that differ only in repeated or trailing separators read the uploaded bytes too |
| LocalStore.DownloadMissing | src/main/java/com/azure/keyvault/utils/M3AzureStorageUtils.java:330 | Reading a path that holds no regular file fails with FileNotFoundException |
| LocalStore.RemoveReportsExistence | src/main/java/com/azure/keyvault/utils/M3AzureStorageUtils.java:268-277 | Delete answers true exactly when something existed at the path; afterwards no file is there, and every other file reads as before |
| LocalStore.RemoveAbsent | src/main/java/com/azure/keyvault/utils/M3AzureStorageUtils.java:271-276 | Deleting what does not exist answers false and changes nothing |
| LocalStore.RemoveNonEmptyDirectory | src/main/java/com/azure/keyvault/utils/M3AzureStorageUtils.java:272-274 | Deleting a directory with something below it answers true and changes nothing |
| LocalStore.RemoveKeepsWellFormed | src/main/java/com/azure/keyvault/utils/M3AzureStorageUtils.java:268-277 | A delete keeps the file system a tree |
| LocalStore.NoChildrenNoDescendants | src/main/java/com/azure/keyvault/utils/M3AzureStorageUtils.java:273 | In a tree, a directory with no direct entry has nothing below it at all |
| LocalStore.EmptyIffNoChild | src/main/java/com/azure/keyvault/utils/M3AzureStorageUtils.java:273 | In a tree, a directory has nothing below it exactly when it has no direct entry |
| LocalStore.LocalFileSystem.MakeDirs | src/main/java/com/azure/keyvault/utils/M3AzureStorageUtils.java:143-145 | `mkdirs` creates the directory and every missing ancestor unless it exists or an ancestor is a regular file; files are untouched and the tree stays valid |
| LocalStore.LocalFileSystem.WriteFile | src/main/java/com/azure/keyvault/utils/M3AzureStorageUtils.java:146-148 | Opening for writing succeeds exactly when the target is not a directory and its parent is a directory; then the file holds the data, otherwise FileNotFoundException and nothing changes |
| LocalStore.LocalFileSystem.Delete | src/main/java/com/azure/keyvault/utils/M3AzureStorageUtils.java:273 | `File.delete` removes a regular file or an empty directory and nothing else; an empty directory is one with nothing below it |
| Listing.MapToFileDetailsAzure | src/main/java/com/azure/keyvault/utils/M3AzureStorageUtils.java:52-66 | A block blob maps to its name, a virtual directory to its prefix, anything else to its storage URI; the container is left null |
| Listing.ListRemote | src/main/java/com/azure/keyvault/utils/M3AzureStorageUtils.java:396-397 | One record per listed item, same length and order, each with the item's mapped path and the container name |
| Listing.ListedPath | src/main/java/com/azure/keyvault/utils/M3AzureStorageUtils.java:388 | The path reported for an entry never contains a backslash, and a path without backslashes that does not contain the container directory is reported unchanged |
| JavaStrings.JoinFields | src/main/java/com/azure/keyvault/utils/M3AzureStorageUtils.java:388 | `replace` cuts the string at each occurrence of the target; joining the pieces with the target again gives the string back, so the pieces lose nothing |
| Listing.ListedPathIsRelative | src/main/java/com/azure/keyvault/utils/M3AzureStorageUtils.java:388 | An entry below the container directory is listed by its path relative to that directory |
| Sas.BlobPolicy | src/main/java/com/azure/keyvault/utils/M3AzureStorageUtils.java:308-312 | The blob URL grants exactly read, write and list, and expires 30 minutes after generation |
| Sas.DirectoryPolicy | src/main/java/com/azure/keyvault/utils/M3AzureStorageUtils.java:425-436 | The directory URL grants strictly more than the blob URL, including add, create and delete, and expires 30 minutes after generation |
| Sas.SignedURL | src/main/java/com/azure/keyvault/utils/M3AzureStorageUtils.java:314 | A signed URL is the resource URI, `?`, then the signature; its length and each part at its position are given |
| Sas.SignedURLReadBack | src/main/java/com/azure/keyvault/utils/M3AzureStorageUtils.java:314 | When neither URI has a `?`, equal signed URLs have equal URIs and equal signatures: the first `?` separates them |
| Sas.DirectoryGrantsMore | src/main/java/com/azure/keyvault/utils/M3AzureStorageUtils.java:429-436 | The directory policy adds exactly add, create and delete to the blob policy, and both expire at the same time |
| M3Storage.UploadFile | src/main/java/com/azure/keyvault/utils/M3AzureStorageUtils.java:137-162 | Locally the file system ends up as `Upload` of the target says, answering null or the wrapped FileNotFoundException; a target whose parent is null throws NullPointerException; remotely nothing local changes and SDK failures are wrapped only when caught |
| M3Storage.WriteLocal | src/main/java/com/azure/keyvault/utils/M3AzureStorageUtils.java:141-149 | Creating the missing parents and then writing has exactly the effect of `Upload`, and keeps the tree valid |
| M3Storage.ReadFileFromFilePath | src/main/java/com/azure/keyvault/utils/M3AzureStorageUtils.java:329-335 | A fresh array holding exactly the file's bytes, or the unwrapped FileNotFoundException when there is no regular file |
| M3Storage.DownloadFile | src/main/java/com/azure/keyvault/utils/M3AzureStorageUtils.java:207-228 | Locally exactly the bytes `Download` finds at the target, with FileNotFoundException wrapped; remotely the bytes the SDK delivered, in a fresh array |
| M3Storage.Delete | src/main/java/com/azure/keyvault/utils/M3AzureStorageUtils.java:265-288 | Locally the answer and the new file system are those of `Remove` on the target; remotely the SDK's answer and nothing local changes |
| M3Storage.ListFiles | src/main/java/com/azure/keyvault/utils/M3AzureStorageUtils.java:376-405 | Locally: null when the target does not exist, NullPointerException for a regular file, otherwise one record per entry of the directory, each entry once and as many records as entries; remotely the stamped mapped listing |
| M3Storage.ListLocal | src/main/java/com/azure/keyvault/utils/M3AzureStorageUtils.java:385-390 | One record per directory entry, each entry exactly once, with the container name and the rewritten path; as many records as entries, and every entry's record is present |
| M3Storage.ListingComplete | src/main/java/com/azure/keyvault/utils/M3AzureStorageUtils.java:385-390 | A listing with one record per enumerated entry has as many records as entries, covers every entry, and stamps the container on every record |
| M3Storage.EnumerationSize | src/main/java/com/azure/keyvault/utils/M3AzureStorageUtils.java:385 | A stream that yields every entry of a directory exactly once has as many elements as the directory has entries |
| M3Storage.UploadMetadata | src/main/java/com/azure/keyvault/utils/M3AzureStorageUtils.java:174-194 | A local string throws IllegalArgumentException unwrapped and changes nothing; remotely the metadata becomes the old map overridden by the given entries, then committed |
| M3Storage.MergeMetadata | src/main/java/com/azure/keyvault/utils/M3AzureStorageUtils.java:183-185 | Putting every given entry leaves the given values on the given keys and the old values elsewhere |
| M3Storage.DownloadMetadata | src/main/java/com/azure/keyvault/utils/M3AzureStorageUtils.java:238-254 | A local string throws IllegalArgumentException; otherwise the answer is the blob's metadata map, or the connection failure, wrapped when caught |
| M3Storage.SasURL | src/main/java/com/azure/keyvault/utils/M3AzureStorageUtils.java:298-321 | Locally the local URL; remotely it succeeds exactly when the blob reference and the signature are obtained, and then is the blob URI signed with the blob policy generated at that moment; a failure of either is wrapped as the catch clause says |
| M3Storage.SasDirectoryURL | src/main/java/com/azure/keyvault/utils/M3AzureStorageUtils.java:416-445 | Locally the local URL; remotely it succeeds exactly when the container reference and the signature are obtained, and then is the container URI signed with the directory policy; a failure of either is wrapped as the catch clause says |
| M3Storage.LocalSasURLsAgree | src/main/java/com/azure/keyvault/utils/M3AzureStorageUtils.java:419-421 | For a local string the two URL operations give the same answer |
| M3Storage.LocalSasURLOfThreeFields | src/main/java/com/azure/keyvault/utils/M3AzureStorageUtils.java:301-303 | `LOCAL...;basePath;baseURL` gives `baseURL?filepath=basePath/container/filePath` |
| M3Storage.TwoFieldSasFails | src/main/java/com/azure/keyvault/utils/M3AzureStorageUtils.java:301-303 | With a two-field local string the target exists, but the URL operation throws ArrayIndexOutOfBoundsException |
| M3Storage.DescriptorIsLocal | src/main/java/com/azure/keyvault/utils/M3AzureStorageUtils.java:73-75 | A string that begins with a marker starting with `LOCAL` is local |
| M2Storage.ServiceURL | src/main/java/com/azure/keyvault/utils/M2AzureStorageUtils.java:47 | The endpoint is `https://`, the account name, then `.blob.core.windows.net`, and the name can be read back |
| M2Storage.ServiceURLInjective | src/main/java/com/azure/keyvault/utils/M2AzureStorageUtils.java:47 | Different accounts get different endpoints |
| M2Storage.GetBlobURL | src/main/java/com/azure/keyvault/utils/M2AzureStorageUtils.java:38-61 | Null credentials throw NullPointerException; fewer than two `<@#@>` fields throw ArrayIndexOutOfBoundsException; otherwise a failure inside the `try` is rethrown unchanged, and success gives the first two fields as account name and key with the given container and blob |
| M2Storage.DelimiterUnbordered | src/main/java/com/azure/keyvault/utils/M2AzureStorageUtils.java:42 | `<@#@>` cannot overlap itself, so its occurrences are unambiguous |
| M2Storage.CredentialRoundTrip | src/main/java/com/azure/keyvault/utils/M2AzureStorageUtils.java:42-43 | `name<@#@>key` gives back exactly that account name and key |
| M2Storage.ExtraFieldsIgnored | src/main/java/com/azure/keyvault/utils/M2AzureStorageUtils.java:42-43 | Anything after a second `<@#@>` does not change the name or the key |
| M2Storage.NoDelimiterFails | src/main/java/com/azure/keyvault/utils/M2AzureStorageUtils.java:42-43 | Credentials without `<@#@>` throw ArrayIndexOutOfBoundsException |
| M2Storage.BlobURLText | src/main/java/com/azure/keyvault/utils/M2AzureStorageUtils.java:97 | The blob URL is the account's service endpoint, `/`, the container, `/`, the blob name, each part at its position |
| M2Storage.UploadFile | src/main/java/com/azure/keyvault/utils/M2AzureStorageUtils.java:63-71 | True exactly when the service answered 201, false for any other status; a failure building the URL or from the service is passed on unchanged |
| M2Storage.DownloadFile | src/main/java/com/azure/keyvault/utils/M2AzureStorageUtils.java:73-83 | Succeeds exactly when the blob URL is built and the SDK delivered bytes, and then answers those bytes; a failure building the URL or from the download is passed on unchanged |
| M2Storage.Delete | src/main/java/com/azure/keyvault/utils/M2AzureStorageUtils.java:85-92 | True exactly when the service answered 201, false for any other status; a failure building the URL or from the service is passed on unchanged |
| M2Storage.SasURL | src/main/java/com/azure/keyvault/utils/M2AzureStorageUtils.java:94-98 | The blob's plain URL, starting with the account's endpoint |
| M2Storage.SasURLHasNoQuery | src/main/java/com/azure/keyvault/utils/M2AzureStorageUtils.java:94-98 | The answer carries no `?`, so there is no signature, unless one of the names has one |

## Left out

- Storage SDK behaviour is not modelled. Its results are inputs of type `Sdk<T>`: a value or the exception thrown. This covers account parsing, container creation, uploads and downloads, `deleteIfExists`, listings, signature generation, metadata commits, and M2's reactive pipeline.
- M3Storage.DownloadMetadata: returns the metadata map the blob reference holds. Whether a freshly obtained reference already holds the stored metadata is SDK behaviour.
- M3Storage.UploadMetadata: merges into the reference's in-memory map as it is given. The same question applies.
- M2Storage.SasURL: the URL is the service endpoint, container and blob name joined by `/`. The SDK's URL escaping is not modelled.
- M2Storage.GetBlobURL: the failures inside its `try` block come in through `setup`. Examples are key decoding and a malformed URL.
- The wall clock is not modelled. `now` is a parameter counted in minutes, and calendar arithmetic in UTC is left out.
- Logging is not modelled.
- `parallelStream().forEach` is modelled as a sequential loop. Each record is stamped independently.
- M3Storage.ListFiles: the order in which `File.listFiles` yields entries is unspecified. The model names it with the ghost sequence `order` and only requires each entry to appear once.
- Listing.ListedPathIsRelative: stated only when the relative part does not contain the container directory's text. Otherwise the source removes that text wherever it occurs.
- Listing.ListedPath: its contract fixes the reported path only for a path outside the container directory (unchanged) and, through ListedPathIsRelative, for one directly below it; a path holding the container directory's text more than once, or holding backslashes, is only promised to be free of backslashes.
- The local file system is simplified:
  - Paths are normalised only as `java.io.File` spells them on a Unix-like system: repeated `/` collapse and a trailing `/` is dropped. `\` is just a character. The operating system's resolution is not modelled (see the next three lines).
  - The root directory itself is not an entry, so uploading to, deleting or listing `/` itself is not covered.
  - Permissions and I/O errors other than a missing file or a directory in the way are not modelled.
  - Partial reads are not modelled. `available()` is taken to be the file length.
  - Closing streams is not modelled.
- LocalStore.UploadThenDownload: `.` and `..` segments and symbolic links are kept as plain names, and relative paths are not resolved against the working directory. Paths the operating system treats as one file are distinct keys in the model, so "every other path reads as before" can name a file the upload in fact overwrote.
- LocalStore.UploadThroughEquivalentPath: only the spellings `java.io.File` itself merges are equivalent; `.`, `..`, links and relative-versus-absolute spellings of one file are not.
- LocalStore.RemoveReportsExistence: for the same reason, "every other file reads as before" holds of paths as spelled, not of the files the operating system resolves them to.
- Null container names, file paths, byte arrays and metadata maps are not modelled.
- Java's array size limit is not modelled.
- `M1AzureStorageUtils`, `Application` and `EncryptionDecryptionUtils` are not part of this model.

=== FILE: connection.dfy ===
/** How M3AzureStorageUtils reads a connection string: a string starting with "LOCAL"
  * selects the local file system, whose base path and public base URL are the second
  * and third ';'-separated fields; anything else is handed to the storage SDK. */
module Connection {
  import opened Wrappers
  import opened JavaLang
  import opened JavaStrings
  import Paths

  const LocalMarker := "LOCAL"
  const FieldDelimiter := ";"
  /** `SEPARATOR`: the path separator as a string. */
  const Separator: string := [Paths.Sep]
  const FilePathQuery := "?filepath="

  /** `isLocal`: a non-null string that starts with the local marker. */
  predicate IsLocal(cs: JString): (b: bool)
    ensures b <==> cs.Str? && |cs.chars| >= 5 && cs.chars[..5] == "LOCAL"
  {
    cs.Str? && StartsWith(cs.chars, LocalMarker)
  }

  /** Field `n` of `cs.split(";")` when `cs` is non-null and contains ';', null otherwise;
    * indexing past the end of the split throws. */
  function LocalField(cs: JString, n: nat): (r: Result<JString, Exception>)
    ensures r == Ok(Null) <==> !(cs.Str? && Contains(cs.chars, FieldDelimiter))
    ensures r.Err? <==> cs.Str? && Contains(cs.chars, FieldDelimiter) && |Split(cs.chars, FieldDelimiter)| <= n
    ensures r.Err? ==> r.error == ArrayIndexOutOfBounds
    ensures r.Ok? && r.value.Str? ==> !Contains(r.value.chars, FieldDelimiter)
    ensures cs.Str? && Contains(cs.chars, FieldDelimiter) && n < |Split(cs.chars, FieldDelimiter)|
            ==> r == Ok(Str(Split(cs.chars, FieldDelimiter)[n]))
  {
    if cs.Str? && Contains(cs.chars, FieldDelimiter) then
      var fields := Split(cs.chars, FieldDelimiter);
      FieldsAreFree(cs.chars, FieldDelimiter);
      assert fields == Fields(cs.chars, FieldDelimiter)[..|fields|];
      if n < |fields| then
        assert fields[n] in Fields(cs.chars, FieldDelimiter);
        Ok(Str(fields[n]))
      else Err(ArrayIndexOutOfBounds)
    else Ok(Null)
  }

  /** `getLocalPath`: null without a ';', the second field otherwise, which holds no ';';
    * ArrayIndexOutOfBoundsException when the split has fewer than two fields. */
  function GetLocalPath(cs: JString): (r: Result<JString, Exception>)
    ensures r == Ok(Null) <==> cs.Null? || !Contains(cs.chars, FieldDelimiter)
    ensures r.Err? <==> cs.Str? && Contains(cs.chars, FieldDelimiter) && |Split(cs.chars, FieldDelimiter)| < 2
    ensures r.Err? ==> r.error == ArrayIndexOutOfBounds
    ensures r.Ok? && r.value.Str? ==> !Contains(r.value.chars, FieldDelimiter)
    ensures cs.Str? && Contains(cs.chars, FieldDelimiter) && |Split(cs.chars, FieldDelimiter)| >= 2
            ==> r == Ok(Str(Split(cs.chars, FieldDelimiter)[1]))
  {
    LocalField(cs, 1)
  }

  /** `getLocalBaseURL`: as `getLocalPath`, for the third field; whenever it succeeds,
    * `getLocalPath` does too. */
  function GetLocalBaseURL(cs: JString): (r: Result<JString, Exception>)
    ensures r == Ok(Null) <==> cs.Null? || !Contains(cs.chars, FieldDelimiter)
    ensures r.Err? <==> cs.Str? && Contains(cs.chars, FieldDelimiter) && |Split(cs.chars, FieldDelimiter)| < 3
    ensures r.Err? ==> r.error == ArrayIndexOutOfBounds
    ensures r.Ok? && r.value.Str? ==> !Contains(r.value.chars, FieldDelimiter)
    ensures cs.Str? && Contains(cs.chars, FieldDelimiter) && |Split(cs.chars, FieldDelimiter)| >= 3
            ==> r == Ok(Str(Split(cs.chars, FieldDelimiter)[2]))
    ensures r.Ok? ==> GetLocalPath(cs).Ok?
  {
    LocalField(cs, 2)
  }

  /** The container directory `localPath + "/" + containerName` (the listing's `localContainderPath`). */
  function LocalContainerPath(cs: JString, container: string): Result<string, Exception>
  {
    match GetLocalPath(cs)
    case Err(e) => Err(e)
    case Ok(base) => Ok(Text(base) + Separator + container)
  }

  /** The `finalPath` every local operation works on: `localPath/container/filePath`. */
  function LocalTarget(cs: JString, container: string, filePath: string): (r: Result<string, Exception>)
    ensures r.Ok? <==> LocalContainerPath(cs, container).Ok?
    ensures r.Ok? ==> r.value == LocalContainerPath(cs, container).value + Separator + filePath
    ensures r.Err? ==> r.error == ArrayIndexOutOfBounds
  {
    match LocalContainerPath(cs, container)
    case Err(e) => Err(e)
    case Ok(dir) => Ok(dir + Separator + filePath)
  }

  /** The local branch of `sasURL` and `sasDirectoryURL`: the base URL with the target as a
    * `filepath` query parameter. No signature is involved. */
  function LocalSasURL(cs: JString, container: string, filePath: string): (r: Result<string, Exception>)
    ensures r.Ok? <==> LocalTarget(cs, container, filePath).Ok? && GetLocalBaseURL(cs).Ok?
    ensures r.Err? ==> r.error == ArrayIndexOutOfBounds
    ensures r.Ok? ==> StartsWith(r.value, Text(GetLocalBaseURL(cs).value) + FilePathQuery)
    ensures r.Ok? ==> var t := LocalTarget(cs, container, filePath).value;
                      |t| <= |r.value| && r.value[|r.value| - |t|..] == t
    ensures r.Ok? ==> |r.value| == |Text(GetLocalBaseURL(cs).value)| + |FilePathQuery|
                                   + |LocalTarget(cs, container, filePath).value|
  {
    match LocalTarget(cs, container, filePath)
    case Err(e) => Err(e)
    case Ok(target) =>
      match GetLocalBaseURL(cs)
      case Err(e) => Err(e)
      case Ok(base) => Ok(Text(base) + FilePathQuery + target)
  }

  /** A three-field local descriptor as the configuration writes it. */
  function LocalDescriptor(marker: string, basePath: string, baseURL: string): string
  {
    marker + FieldDelimiter + basePath + FieldDelimiter + baseURL
  }

  /** A string without ';'. */
  predicate Plain(s: string)
  {
    FieldDelimiter[0] !in s
  }

  lemma PlainIsFree(s: string)
    requires Plain(s)
    ensures !Contains(s, FieldDelimiter)
  {
    forall j: nat | j + 1 <= |s|
      ensures !MatchAt(s, FieldDelimiter, j)
    {
      assert s[j..j + 1] == [s[j]];
    }
  }

  // ----- properties -----

  /** A well-formed three-field descriptor contains ';' and splits into its three fields. */
  lemma DescriptorSplits(marker: string, basePath: string, baseURL: string)
    requires Plain(marker) && Plain(basePath) && Plain(baseURL) && baseURL != ""
    ensures Contains(LocalDescriptor(marker, basePath, baseURL), FieldDelimiter)
    ensures Split(LocalDescriptor(marker, basePath, baseURL), FieldDelimiter) == [marker, basePath, baseURL]
  {
    var s := LocalDescriptor(marker, basePath, baseURL);
    PlainIsFree(marker);
    PlainIsFree(basePath);
    PlainIsFree(baseURL);
    SemicolonUnbordered();
    assert Contains(s, FieldDelimiter) by {
      assert s == marker + FieldDelimiter + (basePath + FieldDelimiter + baseURL);
      NoEarlierMatch(marker, FieldDelimiter, basePath + FieldDelimiter + baseURL);
    }
    assert Split(s, FieldDelimiter) == [marker, basePath, baseURL] by {
      SplitThree(marker, basePath, baseURL, FieldDelimiter);
    }
  }

  /** Parsing a well-formed three-field descriptor gives back its base path and base URL. */
  lemma LocalFieldsOfDescriptor(marker: string, basePath: string, baseURL: string)
    requires Plain(marker) && Plain(basePath) && Plain(baseURL) && baseURL != ""
    ensures GetLocalPath(Str(LocalDescriptor(marker, basePath, baseURL))) == Ok(Str(basePath))
    ensures GetLocalBaseURL(Str(LocalDescriptor(marker, basePath, baseURL))) == Ok(Str(baseURL))
  {
    DescriptorSplits(marker, basePath, baseURL);
  }

  /** A descriptor with more than three fields contains ';', and its split starts with the
    * three fields of the descriptor. */
  lemma LongDescriptorSplits(marker: string, basePath: string, baseURL: string, rest: string)
    requires Plain(marker) && Plain(basePath) && Plain(baseURL) && baseURL != ""
    ensures Contains(LocalDescriptor(marker, basePath, baseURL) + FieldDelimiter + rest, FieldDelimiter)
    ensures var fields := Split(LocalDescriptor(marker, basePath, baseURL) + FieldDelimiter + rest, FieldDelimiter);
            |fields| >= 3 && fields[1] == basePath && fields[2] == baseURL
  {
    var d := FieldDelimiter;
    assert LocalDescriptor(marker, basePath, baseURL) + d + rest == marker + d + (basePath + d + (baseURL + d + rest));
    PlainIsFree(marker);
    PlainIsFree(basePath);
    PlainIsFree(baseURL);
    SemicolonUnbordered();
    SplitLeadingThree(marker, basePath, baseURL, rest, d);
  }

  /** Fields after the third are ignored: `marker;basePath;baseURL;rest` gives the same base
    * path and base URL as the three-field descriptor, whatever `rest` holds. */
  lemma ExtraLocalFieldsIgnored(marker: string, basePath: string, baseURL: string, rest: string)
    requires Plain(marker) && Plain(basePath) && Plain(baseURL) && baseURL != ""
    ensures GetLocalPath(Str(LocalDescriptor(marker, basePath, baseURL) + FieldDelimiter + rest)) == Ok(Str(basePath))
    ensures GetLocalBaseURL(Str(LocalDescriptor(marker, basePath, baseURL) + FieldDelimiter + rest)) == Ok(Str(baseURL))
  {
    LongDescriptorSplits(marker, basePath, baseURL, rest);
  }

  /** A two-field descriptor contains ';' and splits into its two fields. */
  lemma TwoFieldSplits(marker: string, basePath: string)
    requires Plain(marker) && Plain(basePath) && basePath != ""
    ensures Contains(marker + FieldDelimiter + basePath, FieldDelimiter)
    ensures Split(marker + FieldDelimiter + basePath, FieldDelimiter) == [marker, basePath]
  {
    PlainIsFree(marker);
    PlainIsFree(basePath);
    SemicolonUnbordered();
    SplitTwo(marker, basePath, FieldDelimiter);
    NoEarlierMatch(marker, FieldDelimiter, basePath);
  }

  /** A descriptor whose third field is empty splits into two fields: Java's `split` drops
    * trailing empty strings. */
  lemma EmptyThirdFieldDropped(marker: string, basePath: string)
    requires Plain(marker) && Plain(basePath) && basePath != ""
    ensures Contains(LocalDescriptor(marker, basePath, ""), FieldDelimiter)
    ensures Split(LocalDescriptor(marker, basePath, ""), FieldDelimiter) == [marker, basePath]
  {
    PlainIsFree(marker);
    PlainIsFree(basePath);
    SemicolonUnbordered();
    var s := LocalDescriptor(marker, basePath, "");
    assert s == marker + FieldDelimiter + (basePath + FieldDelimiter + "");
    FieldsCons(marker, FieldDelimiter, basePath + FieldDelimiter + "");
    FieldsCons(basePath, FieldDelimiter, "");
    assert !Contains("", FieldDelimiter);
    FieldsSingle("", FieldDelimiter);
    NoEarlierMatch(marker, FieldDelimiter, basePath + FieldDelimiter + "");
    assert Fields(s, FieldDelimiter) == [marker, basePath, ""];
    assert [marker, basePath, ""][..2] == [marker, basePath];
    assert StripTrailingEmpty([marker, basePath, ""]) == [marker, basePath];
  }

  /** With only two fields the base path is still found, but asking for the base URL throws
    * ArrayIndexOutOfBoundsException; so does an empty third field. */
  lemma TwoFieldDescriptor(marker: string, basePath: string)
    requires Plain(marker) && Plain(basePath) && basePath != ""
    ensures GetLocalPath(Str(marker + FieldDelimiter + basePath)) == Ok(Str(basePath))
    ensures GetLocalBaseURL(Str(marker + FieldDelimiter + basePath)) == Err(ArrayIndexOutOfBounds)
    ensures GetLocalBaseURL(Str(LocalDescriptor(marker, basePath, ""))) == Err(ArrayIndexOutOfBounds)
  {
    TwoFieldSplits(marker, basePath);
    EmptyThirdFieldDropped(marker, basePath);
  }

  /** Without a ';' both fields are null, even for a local string; the target then starts
    * with the text "null", as Java concatenation renders a null reference. */
  lemma NoDelimiterGivesNull(s: string, container: string, filePath: string)
    requires Plain(s)
    ensures GetLocalPath(Str(s)) == Ok(Null) && GetLocalBaseURL(Str(s)) == Ok(Null)
    ensures LocalTarget(Str(s), container, filePath) == Ok("null/" + container + "/" + filePath)
  {
    PlainIsFree(s);
    assert Text(Null) + Separator + container + Separator + filePath == "null/" + container + "/" + filePath;
  }

  /** For a well-formed descriptor the local target is `basePath/container/filePath` and
    * the local SAS URL is `baseURL?filepath=` followed by it. */
  lemma LocalSasURLOfDescriptor(marker: string, basePath: string, baseURL: string,
                                container: string, filePath: string)
    requires Plain(marker) && Plain(basePath) && Plain(baseURL) && baseURL != ""
    ensures LocalTarget(Str(LocalDescriptor(marker, basePath, baseURL)), container, filePath)
         == Ok(basePath + "/" + container + "/" + filePath)
    ensures LocalSasURL(Str(LocalDescriptor(marker, basePath, baseURL)), container, filePath)
         == Ok(baseURL + "?filepath=" + basePath + "/" + container + "/" + filePath)
  {
    var cs := Str(LocalDescriptor(marker, basePath, baseURL));
    LocalFieldsOfDescriptor(marker, basePath, baseURL);
    var target := basePath + "/" + container + "/" + filePath;
    assert LocalContainerPath(cs, container) == Ok(basePath + "/" + container);
    assert LocalTarget(cs, container, filePath) == Ok(target);
    assert LocalSasURL(cs, container, filePath) == Ok(baseURL + "?filepath=" + target);
    assert baseURL + "?filepath=" + target
        == baseURL + "?filepath=" + basePath + "/" + container + "/" + filePath;
  }
}

=== FILE: java_lang.dfy ===
/** Failure-carrying result types shared by every module of the model. */
module Wrappers {

  datatype Option<+T> = None | Some(value: T)

  /** The value a Java method returns, or the exception it throws. */
  datatype Result<+T, +E> = Ok(value: T) | Err(error: E)
}

/** The few `java.lang` notions the storage utilities depend on. */
module JavaLang {

  /** A Java `String` reference: null, or a sequence of characters. */
  datatype JString = Null | Str(chars: string)

  /** What string concatenation makes of a reference: Java renders null as "null". */
  function Text(s: JString): (t: string)
    ensures s.Str? ==> t == s.chars
    ensures s.Null? ==> t == "null"
  {
    match s
    case Null => "null"
    case Str(cs) => cs
  }

  /** A Java `byte`; only its bit pattern matters here. */
  type Byte = bv8

  /** The exceptions that can leave the storage utilities. */
  datatype Exception =
    | FileNotFound(path: string)          // java.io.FileNotFoundException, an IOException
    | IOFailure(detail: string)           // any other java.io.IOException
    | StorageException(detail: string)    // a service-side failure reported by the storage SDK
    | InvalidKey                          // java.security.InvalidKeyException from credential handling
    | URISyntax                           // java.net.URISyntaxException from endpoint construction
    | ArrayIndexOutOfBounds               // indexing past the end of a `split` result
    | IllegalArgument                     // java.lang.IllegalArgumentException
    | NullPointer                         // java.lang.NullPointerException
    | Service(detail: string)             // any other unchecked failure raised by the SDK
    | AzureException(cause: Exception)    // the wrapper M3AzureStorageUtils throws

  /** What an opaque SDK call produced: a value, or the exception it threw. */
  datatype Sdk<+T> = Returned(value: T) | Threw(thrown: Exception)

  /** Is `e` one of the exceptions named by a `catch` clause of M3AzureStorageUtils?
    * Every such clause lists InvalidKeyException, URISyntaxException and
    * StorageException; the upload and download clauses also list IOException. */
  predicate CaughtByM3(e: Exception, catchesIO: bool)
  {
    || e.InvalidKey? || e.URISyntax? || e.StorageException?
    || (catchesIO && (e.FileNotFound? || e.IOFailure?))
  }

  /** How an exception leaves an M3 operation: wrapped in AzureException when its
    * `catch` clause names it, unchanged otherwise (runtime exceptions pass through). */
  function Translate(e: Exception, catchesIO: bool): (t: Exception)
    ensures t.AzureException? <==> CaughtByM3(e, catchesIO) || e.AzureException?
    ensures CaughtByM3(e, catchesIO) ==> t.cause == e
    ensures !CaughtByM3(e, catchesIO) ==> t == e
  {
    if CaughtByM3(e, catchesIO) then AzureException(e) else e
  }
}

=== FILE: java_strings.dfy ===
/** `java.lang.String` operations the utilities use, for a literal (non-regex) delimiter:
  * `startsWith`, `contains`/`indexOf`, `split` and `replace`. */
module JavaStrings {
  import opened Wrappers

  /** Does `t` occur in `s` starting at index `i`? */
  predicate MatchAt(s: string, t: string, i: nat)
  {
    i + |t| <= |s| && s[i..i + |t|] == t
  }

  /** `s.startsWith(prefix)`. */
  predicate StartsWith(s: string, prefix: string)
  {
    |prefix| <= |s| && s[..|prefix|] == prefix
  }

  /** `s.indexOf(t, k)`: the first index at or after `k` where `t` occurs. */
  function IndexOfFrom(s: string, t: string, k: nat): (r: Option<nat>)
    requires k <= |s|
    decreases |s| - k
    ensures r.Some? ==> k <= r.value && MatchAt(s, t, r.value)
    ensures r.Some? ==> forall j: nat :: k <= j < r.value ==> !MatchAt(s, t, j)
    ensures r.None? ==> forall j: nat :: k <= j ==> !MatchAt(s, t, j)
  {
    if k + |t| > |s| then None
    else if MatchAt(s, t, k) then Some(k)
    else IndexOfFrom(s, t, k + 1)
  }

  /** `s.contains(t)`. */
  predicate Contains(s: string, t: string)
  {
    IndexOfFrom(s, t, 0).Some?
  }

  /** The pieces of `s` between successive occurrences of `d`, found left to right
    * without overlap; empty pieces are kept. */
  function Fields(s: string, d: string): (r: seq<string>)
    requires |d| > 0
    decreases |s|
    ensures |r| >= 1
  {
    match IndexOfFrom(s, d, 0)
    case None => [s]
    case Some(i) => [s[..i]] + Fields(s[i + |d|..], d)
  }

  /** The pieces of `xs` with `sep` between neighbours. */
  function Join(xs: seq<string>, sep: string): string
    requires |xs| >= 1
    decreases |xs|
  {
    if |xs| == 1 then xs[0] else xs[0] + sep + Join(xs[1..], sep)
  }

  /** `xs` without its trailing empty strings. */
  function StripTrailingEmpty(xs: seq<string>): (r: seq<string>)
    ensures |r| <= |xs| && r == xs[..|r|]
    ensures |r| > 0 ==> r[|r| - 1] != ""
    ensures forall i :: |r| <= i < |xs| ==> xs[i] == ""
  {
    if |xs| > 0 && xs[|xs| - 1] == "" then StripTrailingEmpty(xs[..|xs| - 1]) else xs
  }

  /** `s.split(d)` for a delimiter without regex metacharacters: the string itself when
    * `d` does not occur, otherwise its pieces with trailing empty pieces removed. */
  function Split(s: string, d: string): seq<string>
    requires |d| > 0
  {
    if IndexOfFrom(s, d, 0).None? then [s] else StripTrailingEmpty(Fields(s, d))
  }

  /** `s.replace(target, replacement)`: every non-overlapping occurrence, left to right. */
  function Replace(s: string, target: string, replacement: string): string
    requires |target| > 0
  {
    Join(Fields(s, target), replacement)
  }

  /** No proper prefix of `d` is also a suffix of it, so two occurrences of `d` never overlap. */
  predicate Unbordered(d: string)
  {
    forall k :: 0 < k < |d| ==> d[..k] != d[|d| - k..]
  }

  // ----- lemmas -----

  /** Joining the pieces with the delimiter gives back the original string. */
  lemma {:induction false} JoinFields(s: string, d: string)
    requires |d| > 0
    ensures Join(Fields(s, d), d) == s
    decreases |s|
  {
    match IndexOfFrom(s, d, 0)
    case None =>
    case Some(i) =>
      var rest := s[i + |d|..];
      JoinFields(rest, d);
      assert s[i..i + |d|] == d;
      assert s == s[..i] + d + rest;
  }

  /** No piece contains the delimiter. */
  lemma {:induction false} FieldsAreFree(s: string, d: string)
    requires |d| > 0
    ensures forall f | f in Fields(s, d) :: !Contains(f, d)
    decreases |s|
  {
    match IndexOfFrom(s, d, 0)
    case None =>
    case Some(i) =>
      FieldsAreFree(s[i + |d|..], d);
      var head := s[..i];
      forall j: nat | j + |d| <= |head|
        ensures !MatchAt(head, d, j)
      {
        assert head[j..j + |d|] == s[j..j + |d|];
        assert !MatchAt(s, d, j);
      }
  }

  /** If `m` is an occurrence and none lies before it, `indexOf` finds `m`. */
  lemma FirstMatch(s: string, t: string, m: nat)
    requires MatchAt(s, t, m)
    requires forall j: nat :: j < m ==> !MatchAt(s, t, j)
    ensures IndexOfFrom(s, t, 0) == Some(m)
  {
  }

  /** When `d` has no border and `a` does not contain `d`, the first occurrence of `d`
    * in `a + d + rest` is the one right after `a`. */
  lemma {:induction false} NoEarlierMatch(a: string, d: string, rest: string)
    requires |d| > 0 && Unbordered(d) && !Contains(a, d)
    ensures IndexOfFrom(a + d + rest, d, 0) == Some(|a|)
  {
    var s := a + d + rest;
    assert s[|a|..|a| + |d|] == d;
    forall j: nat | j < |a|
      ensures !MatchAt(s, d, j)
    {
      if j + |d| <= |a| {
        assert s[j..j + |d|] == a[j..j + |d|];
        assert !MatchAt(a, d, j);
      } else {
        // an occurrence at j would overlap the one at |a|, giving d a border of length k
        var k := j + |d| - |a|;
        assert s[|a|..|a| + k] == d[..k];
        assert s[|a|..j + |d|] == s[j..j + |d|][|d| - k..];
        assert d[..k] != d[|d| - k..];
      }
    }
    FirstMatch(s, d, |a|);
  }

  /** `Fields` peels off a delimiter-free leading piece. */
  lemma FieldsCons(a: string, d: string, rest: string)
    requires |d| > 0 && Unbordered(d) && !Contains(a, d)
    ensures Fields(a + d + rest, d) == [a] + Fields(rest, d)
  {
    NoEarlierMatch(a, d, rest);
    var s := a + d + rest;
    assert s[..|a|] == a;
    assert s[|a| + |d|..] == rest;
  }

  /** A string without the delimiter is a single piece. */
  lemma FieldsSingle(a: string, d: string)
    requires |d| > 0 && !Contains(a, d)
    ensures Fields(a, d) == [a]
  {
  }

  /** Splitting three delimiter-free pieces joined by `d`, the last one non-empty,
    * gives exactly those three pieces back. */
  lemma SplitThree(a: string, b: string, c: string, d: string)
    requires |d| > 0 && Unbordered(d)
    requires !Contains(a, d) && !Contains(b, d) && !Contains(c, d) && c != ""
    ensures Split(a + d + b + d + c, d) == [a, b, c]
  {
    var s := a + d + b + d + c;
    assert s == a + d + (b + d + c);
    FieldsCons(a, d, b + d + c);
    FieldsCons(b, d, c);
    FieldsSingle(c, d);
    assert Fields(s, d) == [a, b, c];
    NoEarlierMatch(a, d, b + d + c);
    assert IndexOfFrom(s, d, 0).Some?;
    assert StripTrailingEmpty([a, b, c]) == [a, b, c];
  }

  /** Splitting two delimiter-free pieces joined by `d`, the last one non-empty,
    * gives exactly those two pieces back. */
  lemma SplitTwo(a: string, b: string, d: string)
    requires |d| > 0 && Unbordered(d)
    requires !Contains(a, d) && !Contains(b, d) && b != ""
    ensures Split(a + d + b, d) == [a, b]
  {
    FieldsCons(a, d, b);
    FieldsSingle(b, d);
    assert Fields(a + d + b, d) == [a, b];
    NoEarlierMatch(a, d, b);
    assert IndexOfFrom(a + d + b, d, 0).Some?;
    assert StripTrailingEmpty([a, b]) == [a, b];
  }

  /** The split of three delimiter-free pieces followed by more text, the third piece
    * non-empty, starts with those three pieces. */
  lemma SplitLeadingThree(a: string, b: string, c: string, rest: string, d: string)
    requires |d| > 0 && Unbordered(d)
    requires !Contains(a, d) && !Contains(b, d) && !Contains(c, d) && c != ""
    ensures Contains(a + d + (b + d + (c + d + rest)), d)
    ensures var fields := Split(a + d + (b + d + (c + d + rest)), d);
            |fields| >= 3 && fields[..3] == [a, b, c]
  {
    var s := a + d + (b + d + (c + d + rest));
    NoEarlierMatch(a, d, b + d + (c + d + rest));
    FieldsCons(a, d, b + d + (c + d + rest));
    FieldsCons(b, d, c + d + rest);
    FieldsCons(c, d, rest);
    var xs := Fields(s, d);
    assert xs[..3] == [a, b, c];
    var fields := StripTrailingEmpty(xs);
    assert |fields| >= 3 by {
      assert xs[2] != "";
    }
    assert fields[..3] == xs[..3];
  }

  /** Replacing a target that does not occur changes nothing. */
  lemma ReplaceAbsent(s: string, t: string, r: string)
    requires |t| > 0 && !Contains(s, t)
    ensures Replace(s, t, r) == s
  {
    FieldsSingle(s, t);
  }

  /** Removing `t` from `t + u`, where `u` does not contain `t`, leaves `u`. */
  lemma RemoveLeading(t: string, u: string)
    requires |t| > 0 && !Contains(u, t)
    ensures Replace(t + u, t, "") == u
  {
    var s := t + u;
    assert MatchAt(s, t, 0);
    FirstMatch(s, t, 0);
    assert s[..0] == "" && s[|t|..] == u;
    FieldsSingle(u, t);
    assert Fields(s, t) == ["", u];
    assert Join(["", u], "") == "" + "" + Join([u], "");
  }

  /** A string without the character `c` does not contain the one-character string `[c]`. */
  lemma CharAbsent(s: string, c: char)
    requires c !in s
    ensures !Contains(s, [c])
  {
    forall j: nat | j + 1 <= |s|
      ensures !MatchAt(s, [c], j)
    {
      assert s[j..j + 1] == [s[j]];
    }
  }

  /** Replacing a character by another leaves no occurrence of the first. */
  lemma ReplaceCharRemovesIt(s: string, c: char, r: char)
    requires c != r
    ensures c !in Replace(s, [c], [r])
  {
    var xs := Fields(s, [c]);
    FieldsAreFree(s, [c]);
    forall f | f in xs
      ensures c !in f
    {
      NotContainsChar(f, c);
    }
    JoinAvoids(xs, [r], c);
  }

  /** A replacement that does not bring the character `c` in cannot create one. */
  lemma ReplaceKeepsOut(s: string, t: string, r: string, c: char)
    requires |t| > 0 && c !in s && c !in r
    ensures c !in Replace(s, t, r)
  {
    FieldsAvoid(s, t, c);
    JoinAvoids(Fields(s, t), r, c);
  }

  /** The pieces of a string without `c` are without `c`. */
  lemma {:induction false} FieldsAvoid(s: string, d: string, c: char)
    requires |d| > 0 && c !in s
    ensures forall f | f in Fields(s, d) :: c !in f
    decreases |s|
  {
    match IndexOfFrom(s, d, 0)
    case None =>
    case Some(i) =>
      var rest := s[i + |d|..];
      assert forall j :: 0 <= j < |rest| ==> rest[j] == s[i + |d| + j];
      FieldsAvoid(rest, d, c);
      assert forall j :: 0 <= j < i ==> s[..i][j] == s[j];
  }

  /** Joining pieces without `c` by a separator without `c` gives a string without `c`. */
  lemma {:induction false} JoinAvoids(xs: seq<string>, sep: string, c: char)
    requires |xs| >= 1 && c !in sep
    requires forall f | f in xs :: c !in f
    ensures c !in Join(xs, sep)
    decreases |xs|
  {
    if |xs| > 1 {
      assert forall f | f in xs[1..] :: f in xs;
      JoinAvoids(xs[1..], sep, c);
    }
  }

  lemma NotContainsChar(f: string, c: char)
    requires !Contains(f, [c])
    ensures c !in f
  {
    if c in f {
      var i :| 0 <= i < |f| && f[i] == c;
      assert f[i..i + 1] == [c];
      assert MatchAt(f, [c], i);
    }
  }

  /** ";" has no border. */
  lemma SemicolonUnbordered()
    ensures Unbordered(";")
  {
  }
}

=== FILE: listing.dfy ===
/** The records `listFiles` returns, and how they are made from what a listing yields:
  * entries of a remote container listing, or paths of a local directory. */
module Listing {
  import opened JavaLang
  import opened JavaStrings

  /** `FileDetails`: the container and the path of one listed entry; either may be null. */
  datatype FileDetails = FileDetails(container: JString, filePath: JString)

  /** An entry of a remote listing (the SDK's `ListBlobItem`), by kind. */
  datatype ListItem =
    | BlockBlob(name: string)             // a `CloudBlockBlob`
    | BlobDirectory(prefix: string)       // a `CloudBlobDirectory`, a virtual directory
    | OtherItem(storageUri: string)       // any other item, by the text of its storage URI

  /** The name each kind of entry is listed under. */
  function EntryName(item: ListItem): string
  {
    match item
    case BlockBlob(n) => n
    case BlobDirectory(p) => p
    case OtherItem(u) => u
  }

  /** `mapToFileDetailsAzure`: a fresh record whose path is the entry's name, prefix or URI,
    * and whose container is left unset. */
  function MapToFileDetailsAzure(item: ListItem): (d: FileDetails)
    ensures d.container == Null
    ensures item.BlockBlob? ==> d.filePath == Str(item.name)
    ensures item.BlobDirectory? ==> d.filePath == Str(item.prefix)
    ensures item.OtherItem? ==> d.filePath == Str(item.storageUri)
  {
    FileDetails(Null, Str(EntryName(item)))
  }

  /** The records of a remote listing: one per entry, in the same order, each carrying the
    * entry's name and the container. */
  ghost predicate RemoteListing(list: seq<FileDetails>, items: seq<ListItem>, container: string)
  {
    && |list| == |items|
    && forall i :: 0 <= i < |list| ==>
         list[i] == FileDetails(Str(container), MapToFileDetailsAzure(items[i]).filePath)
  }

  /** The remote branch of `listFiles` once the SDK has produced `items`: map every entry,
    * then stamp the container on every record. */
  method ListRemote(items: seq<ListItem>, container: string) returns (list: seq<FileDetails>)
    ensures RemoteListing(list, items, container)
  {
    list := [];
    var i := 0;
    while i < |items|
      invariant 0 <= i <= |items| && |list| == i
      invariant forall j :: 0 <= j < i ==> list[j] == MapToFileDetailsAzure(items[j])
    {
      list := list + [MapToFileDetailsAzure(items[i])];
      i := i + 1;
    }
    var k := 0;
    while k < |list|
      invariant 0 <= k <= |list| == |items|
      invariant forall j :: 0 <= j < k ==> list[j] == FileDetails(Str(container), MapToFileDetailsAzure(items[j]).filePath)
      invariant forall j :: k <= j < |list| ==> list[j] == MapToFileDetailsAzure(items[j])
    {
      list := list[k := list[k].(container := Str(container))];
      k := k + 1;
    }
  }

  /** The path a local listing reports for an entry: its absolute path with every '\'
    * turned into '/' and then every occurrence of the container directory removed. It
    * never contains '\', and a path outside the container directory is reported as it is. */
  function ListedPath(absolutePath: string, containerPath: string): (r: string)
    requires |containerPath| > 0
    ensures '\\' !in r
    ensures '\\' !in absolutePath && !Contains(absolutePath, containerPath) ==> r == absolutePath
  {
    var unified := Replace(absolutePath, "\\", "/");
    ReplaceCharRemovesIt(absolutePath, '\\', '/');
    ReplaceKeepsOut(unified, containerPath, "", '\\');
    UnrelatedPathUnchanged(absolutePath, containerPath);
    Replace(unified, containerPath, "")
  }

  lemma UnrelatedPathUnchanged(absolutePath: string, containerPath: string)
    requires |containerPath| > 0
    ensures '\\' !in absolutePath && !Contains(absolutePath, containerPath)
            ==> Replace(Replace(absolutePath, "\\", "/"), containerPath, "") == absolutePath
  {
    if '\\' !in absolutePath && !Contains(absolutePath, containerPath) {
      CharAbsent(absolutePath, '\\');
      ReplaceAbsent(absolutePath, "\\", "/");
      ReplaceAbsent(absolutePath, containerPath, "");
    }
  }

  /** An entry below the container directory is listed by its path relative to it, as long
    * as that relative part does not itself contain the container directory's text. */
  lemma ListedPathIsRelative(containerPath: string, rest: string)
    requires |containerPath| > 0
    requires '\\' !in containerPath + rest && !Contains(rest, containerPath)
    ensures ListedPath(containerPath + rest, containerPath) == rest
  {
    CharAbsent(containerPath + rest, '\\');
    ReplaceAbsent(containerPath + rest, "\\", "/");
    RemoveLeading(containerPath, rest);
  }
}

=== FILE: local_store.dfy ===
/** The local file system the "LOCAL" mode writes to, as far as `java.io.File`,
  * `FileOutputStream` and `FileInputStream` expose it: regular files with byte contents
  * and directories, both named by normalised path strings. */
module LocalStore {
  import opened Wrappers
  import opened JavaLang
  import opened Paths

  /** A `java.io.File`: the normalised path it names. */
  datatype File = File(path: string)

  /** `new File(s)`. */
  function NewFile(s: string): File
  {
    File(Normalize(s))
  }

  /** `file.getParentFile()` returns null: for the root itself and for a single relative name. */
  predicate ParentIsNull(f: File)
  {
    f.path == [Sep] || Sep !in f.path
  }

  /** `file.getParentFile()` where it is not null: None when the parent is the root (or,
    * for a relative single name, the working directory), both of which always exist. */
  function ParentFile(f: File): Option<File>
  {
    match Parent(f.path)
    case None => None
    case Some(q) => Some(File(q))
  }

  /** The contents of the file system: regular files and directories. The root and the
    * working directory are implicit and always exist. */
  datatype FsState = FsState(files: map<string, seq<Byte>>, dirs: set<string>)

  /** A tree: nothing is both a file and a directory, and everything sits inside existing
    * directories. */
  ghost predicate WellFormed(s: FsState)
  {
    && s.files.Keys !! s.dirs
    && (forall p | p in s.files :: Ancestors(p) <= s.dirs)
    && (forall d | d in s.dirs :: Ancestors(d) <= s.dirs)
  }

  /** What a local upload leaves behind: it succeeds exactly when the target is not a
    * directory and none of its ancestors is a regular file; then the target holds `data`
    * and all its ancestors are directories. Otherwise FileNotFoundException, and nothing changes. */
  function Upload(s: FsState, path: string, data: seq<Byte>): (r: Result<FsState, Exception>)
    ensures r.Err? ==> r.error == FileNotFound(Normalize(path))
    ensures r.Ok? ==> Normalize(path) in r.value.files && r.value.files[Normalize(path)] == data
    ensures r.Ok? ==> r.value.files.Keys == s.files.Keys + {Normalize(path)}
    ensures r.Ok? ==> forall q | q in s.files && q != Normalize(path) :: r.value.files[q] == s.files[q]
    ensures r.Ok? ==> s.dirs <= r.value.dirs && Ancestors(Normalize(path)) <= r.value.dirs
    ensures r.Ok? ==> forall d | d in r.value.dirs - s.dirs :: d in Ancestors(Normalize(path))
  {
    var p := Normalize(path);
    if p !in s.dirs && Ancestors(p) !! s.files.Keys then
      Ok(FsState(s.files[p := data], s.dirs + Ancestors(p)))
    else Err(FileNotFound(p))
  }

  /** What reading a whole file yields: its contents, or FileNotFoundException when there is
    * no regular file at `path`. */
  function Download(s: FsState, path: string): (r: Result<seq<Byte>, Exception>)
    ensures r.Ok? <==> Normalize(path) in s.files
    ensures r.Ok? ==> r.value == s.files[Normalize(path)]
    ensures r.Err? ==> r.error == FileNotFound(Normalize(path))
  {
    var p := Normalize(path);
    if p in s.files then Ok(s.files[p]) else Err(FileNotFound(p))
  }

  /** Does anything live below directory `d`? */
  ghost predicate HasDescendants(s: FsState, d: string)
  {
    exists q | q in s.files.Keys + s.dirs :: d in Ancestors(q)
  }

  /** What a local delete does: report whether anything existed at `path`; remove a regular
    * file, or a directory with nothing inside it. */
  ghost function Remove(s: FsState, path: string): (r: (bool, FsState))
    ensures r.0 <==> Normalize(path) in s.files || Normalize(path) in s.dirs
    ensures r.1.files.Keys == s.files.Keys - {Normalize(path)}
    ensures forall q | q in r.1.files :: r.1.files[q] == s.files[q]
    ensures r.1.dirs == s.dirs || r.1.dirs == s.dirs - {Normalize(path)}
    ensures Normalize(path) in r.1.dirs <==> Normalize(path) in s.dirs && HasDescendants(s, Normalize(path))
  {
    var p := Normalize(path);
    var existed := p in s.files || p in s.dirs;
    var dirs := if p in s.dirs && !HasDescendants(s, p) then s.dirs - {p} else s.dirs;
    (existed, FsState(s.files - {p}, dirs))
  }

  // ----- lemmas about the specification -----

  /** An upload keeps the file system a tree. */
  lemma UploadKeepsWellFormed(s: FsState, path: string, data: seq<Byte>)
    requires WellFormed(s) && Upload(s, path, data).Ok?
    ensures WellFormed(Upload(s, path, data).value)
  {
    var p := Normalize(path);
    var t := Upload(s, path, data).value;
    NotOwnAncestor(p);
    forall d | d in t.dirs
      ensures Ancestors(d) <= t.dirs
    {
      if d in Ancestors(p) {
        AncestorsOfAncestor(p, d);
      }
    }
  }

  /** An upload succeeds exactly when the target is not a directory and no ancestor of it
    * is a regular file. */
  lemma UploadSucceedsIff(s: FsState, path: string, data: seq<Byte>)
    ensures Upload(s, path, data).Ok? <==>
            Normalize(path) !in s.dirs && forall a | a in Ancestors(Normalize(path)) :: a !in s.files
  {
  }

  /** Round trip: after a successful upload, downloading the same path returns exactly the
    * uploaded bytes, and every other path reads as before. */
  lemma UploadThenDownload(s: FsState, path: string, data: seq<Byte>, other: string)
    requires Upload(s, path, data).Ok?
    ensures Download(Upload(s, path, data).value, path) == Ok(data)
    ensures Normalize(other) != Normalize(path) ==>
            Download(Upload(s, path, data).value, other) == Download(s, other)
  {
  }

  /** Paths that name the same file (repeated or trailing separators) share contents. */
  lemma UploadThroughEquivalentPath(s: FsState, path: string, data: seq<Byte>, alias: string)
    requires Upload(s, path, data).Ok? && Normalize(alias) == Normalize(path)
    ensures Download(Upload(s, path, data).value, alias) == Ok(data)
  {
  }

  /** Reading a path with no regular file fails with FileNotFoundException. */
  lemma DownloadMissing(s: FsState, path: string)
    requires Normalize(path) !in s.files
    ensures Download(s, path) == Err(FileNotFound(Normalize(path)))
  {
  }

  /** Delete reports whether the path existed, removes the file, and touches no other file. */
  lemma RemoveReportsExistence(s: FsState, path: string, other: string)
    ensures Remove(s, path).0 <==> Normalize(path) in s.files || Normalize(path) in s.dirs
    ensures Download(Remove(s, path).1, path).Err?
    ensures Normalize(other) != Normalize(path) ==> Download(Remove(s, path).1, other) == Download(s, other)
  {
  }

  /** Deleting something that never existed answers false and changes nothing. */
  lemma RemoveAbsent(s: FsState, path: string)
    requires Normalize(path) !in s.files && Normalize(path) !in s.dirs
    ensures Remove(s, path) == (false, s)
  {
    assert s.files - {Normalize(path)} == s.files;
  }

  /** Deleting a directory that still has something below it answers true but removes nothing. */
  lemma RemoveNonEmptyDirectory(s: FsState, path: string)
    requires WellFormed(s) && Normalize(path) in s.dirs && HasDescendants(s, Normalize(path))
    ensures Remove(s, path) == (true, s)
  {
    assert s.files - {Normalize(path)} == s.files;
  }

  /** A delete keeps the file system a tree. */
  lemma RemoveKeepsWellFormed(s: FsState, path: string)
    requires WellFormed(s)
    ensures WellFormed(Remove(s, path).1)
  {
    var p := Normalize(path);
    var t := Remove(s, path).1;
    if p in s.dirs && !HasDescendants(s, p) {
      forall q | q in t.files.Keys + t.dirs
        ensures p !in Ancestors(q)
      {
        assert q in s.files.Keys + s.dirs;
      }
    }
  }

  /** In a tree, a directory with no direct child has nothing below it at all: the check
    * `File.delete` makes on direct children is the same as one on all descendants. */
  lemma {:induction false} NoChildrenNoDescendants(s: FsState, d: string)
    requires WellFormed(s) && d in s.dirs
    requires forall q | q in s.files.Keys + s.dirs :: Parent(q) != Some(d)
    ensures !HasDescendants(s, d)
  {
    if HasDescendants(s, d) {
      var q :| q in s.files.Keys + s.dirs && d in Ancestors(q);
      var c := ChildOnTheWay(q, d);
    }
  }

  /** In a tree, a directory has something below it exactly when it has a direct child. */
  lemma EmptyIffNoChild(s: FsState, d: string)
    requires WellFormed(s) && d in s.dirs
    ensures !HasDescendants(s, d) <==> forall q | q in s.files.Keys + s.dirs :: Parent(q) != Some(d)
  {
    if forall q | q in s.files.Keys + s.dirs :: Parent(q) != Some(d) {
      NoChildrenNoDescendants(s, d);
    } else {
      var q :| q in s.files.Keys + s.dirs && Parent(q) == Some(d);
      ParentAncestors(q);
    }
  }

  /** The java.io view of a local file system. `workingDir` is the directory relative
    * paths are resolved against. */
  class LocalFileSystem {
    var files: map<string, seq<Byte>>
    var dirs: set<string>
    const workingDir: string

    function State(): FsState
      reads this
    {
      FsState(files, dirs)
    }

    ghost predicate Valid()
      reads this
    {
      WellFormed(State())
    }

    constructor (workingDir: string, files: map<string, seq<Byte>>, dirs: set<string>)
      requires WellFormed(FsState(files, dirs))
      ensures Valid() && this.workingDir == workingDir
      ensures State() == FsState(files, dirs)
    {
      this.workingDir := workingDir;
      this.files := files;
      this.dirs := dirs;
    }

    /** `f.exists()`: a regular file or a directory. */
    predicate Exists(f: File)
      reads this
    {
      f.path in files || f.path in dirs
    }

    /** `f.isDirectory()`, counting the implicit root as a directory. */
    predicate IsDirectoryOrRoot(f: Option<File>)
      reads this
    {
      f.None? || f.value.path in dirs
    }

    /** The entries `f.listFiles()` yields, as paths: everything whose parent is `f`. */
    function Children(f: File): set<string>
      reads this
    {
      set q | q in files.Keys + dirs && Parent(q) == Some(f.path)
    }

    /** `f.listFiles()`: null when `f` is not a directory. */
    function ListFiles(f: File): Option<set<string>>
      reads this
    {
      if f.path in dirs then Some(Children(f)) else None
    }

    /** `f.getAbsolutePath()`: relative paths are resolved against the working directory. */
    function AbsolutePath(f: File): string
      reads this
    {
      if |f.path| > 0 && f.path[0] == Sep then f.path
      else if f.path == "" then workingDir
      else if workingDir == [Sep] then [Sep] + f.path
      else workingDir + [Sep] + f.path
    }

    /** `f.mkdirs()`: creates `f` and every missing ancestor, unless `f` already exists or
      * one of them is a regular file; the result is ignored by the utilities. */
    method MakeDirs(f: File) returns (created: bool)
      requires Valid()
      modifies this
      ensures Valid()
      ensures created <==> !old(Exists(f)) && (Ancestors(f.path) + {f.path}) !! old(files).Keys
      ensures files == old(files)
      ensures dirs == if created then old(dirs) + Ancestors(f.path) + {f.path} else old(dirs)
    {
      if f.path in files || f.path in dirs {
        return false;
      }
      if (Ancestors(f.path) + {f.path}) !! files.Keys {
        forall d | d in Ancestors(f.path) + {f.path}
          ensures Ancestors(d) <= Ancestors(f.path)
        {
          if d in Ancestors(f.path) {
            AncestorsOfAncestor(f.path, d);
          }
        }
        dirs := dirs + Ancestors(f.path) + {f.path};
        return true;
      }
      return false;
    }

    /** `new FileOutputStream(f)` followed by `write(data)`: creating or truncating the file
      * needs an existing parent directory and fails on a directory. */
    method WriteFile(f: File, data: seq<Byte>) returns (r: Result<(), Exception>)
      requires Valid()
      modifies this
      ensures Valid()
      ensures r.Ok? <==> f.path !in old(dirs) && old(IsDirectoryOrRoot(ParentFile(f)))
      ensures r.Ok? ==> files == old(files)[f.path := data] && dirs == old(dirs)
      ensures r.Err? ==> r.error == FileNotFound(f.path) && files == old(files) && dirs == old(dirs)
    {
      if f.path in dirs || !IsDirectoryOrRoot(ParentFile(f)) {
        return Err(FileNotFound(f.path));
      }
      ParentAncestors(f.path);
      files := files[f.path := data];
      return Ok(());
    }

    /** `new FileInputStream(f)` and a read of all of it: fails on anything but a regular file. */
    function Open(f: File): (r: Result<seq<Byte>, Exception>)
      reads this
    {
      if f.path in files then Ok(files[f.path]) else Err(FileNotFound(f.path))
    }

    /** `f.delete()`: removes a regular file, or a directory without entries. In a tree, a
      * directory without entries is one with nothing below it. */
    method Delete(f: File) returns (deleted: bool)
      requires Valid()
      modifies this
      ensures Valid()
      ensures deleted <==> f.path in old(files) || (f.path in old(dirs) && old(Children(f)) == {})
      ensures files == old(files) - {f.path}
      ensures dirs == if f.path in old(dirs) && old(Children(f)) == {} then old(dirs) - {f.path} else old(dirs)
      ensures f.path in old(dirs) ==> (old(Children(f)) == {} <==> !HasDescendants(old(State()), f.path))
    {
      if f.path in dirs {
        EmptyIffNoChild(State(), f.path);
        if Children(f) == {} {
          forall q | q in files.Keys + dirs
            ensures Parent(q) != Some(f.path)
          {
            assert q !in Children(f);
          }
        } else {
          var c :| c in Children(f);
        }
      }
      if f.path in files {
        files := files - {f.path};
        return true;
      }
      if f.path in dirs && Children(f) == {} {
        dirs := dirs - {f.path};
        return true;
      }
      return false;
    }
  }
}

=== FILE: m2_storage.dfy ===
/** `M2AzureStorageUtils`: the same blob operations on the reactive storage SDK. Credentials
  * are `accountName<@#@>accountKey`; the account name selects the service endpoint; an
  * upload or delete counts as done exactly when the service answers status 201. What the
  * SDK does is an input (`Sdk<T>`); its exceptions are not wrapped. */
module M2Storage {
  import opened Wrappers
  import opened JavaLang
  import opened JavaStrings

  const CredentialDelimiter := "<@#@>"
  const CreatedStatus := 201

  /** What `getBlobURL` builds: the account, its key, and the container and blob addressed. */
  datatype BlockBlobURL = BlockBlobURL(accountName: string, accountKey: string, container: string, blob: string)

  /** The service endpoint of an account. */
  function ServiceURL(accountName: string): (u: string)
    ensures StartsWith(u, "https://") && |u| == |accountName| + 30
    ensures u[8..|u| - 22] == accountName && u[|u| - 22..] == ".blob.core.windows.net"
  {
    "https://" + accountName + ".blob.core.windows.net"
  }

  /** `getBlobURL`. The credentials are split on every "<@#@>"; the first two pieces are the
    * account name and key. Null credentials, or fewer than two pieces, throw before the
    * `try`; `setup` is what the SDK calls inside it did, and a failure there is rethrown. */
  function GetBlobURL(credentials: JString, container: string, filename: string, setup: Sdk<()>)
    : (r: Result<BlockBlobURL, Exception>)
    ensures credentials.Null? ==> r == Err(NullPointer)
    ensures credentials.Str? && |Split(credentials.chars, CredentialDelimiter)| < 2 ==> r == Err(ArrayIndexOutOfBounds)
    ensures r.Ok? ==> setup.Returned? && r.value.container == container && r.value.blob == filename
    ensures r.Ok? ==> credentials.Str? && Contains(credentials.chars, CredentialDelimiter)
    ensures credentials.Str? && |Split(credentials.chars, CredentialDelimiter)| >= 2 ==>
      r == match setup
           case Threw(e) => Err(e)
           case Returned(_) =>
             var parts := Split(credentials.chars, CredentialDelimiter);
             Ok(BlockBlobURL(parts[0], parts[1], container, filename))
  {
    if credentials.Null? then Err(NullPointer)
    else
      var parts := Split(credentials.chars, CredentialDelimiter);
      if |parts| < 2 then Err(ArrayIndexOutOfBounds)
      else match setup
           case Threw(e) => Err(e)
           case Returned(_) => Ok(BlockBlobURL(parts[0], parts[1], container, filename))
  }

  /** The text of a blob URL: the service endpoint, then the container and the blob name. */
  function BlobURLText(u: BlockBlobURL): (t: string)
    ensures StartsWith(t, ServiceURL(u.accountName))
    ensures |t| == |ServiceURL(u.accountName)| + |u.container| + |u.blob| + 2
    ensures t[|ServiceURL(u.accountName)|] == '/' && t[|t| - |u.blob| - 1] == '/'
    ensures t[|ServiceURL(u.accountName)| + 1..|t| - |u.blob| - 1] == u.container && t[|t| - |u.blob|..] == u.blob
  {
    ServiceURL(u.accountName) + "/" + u.container + "/" + u.blob
  }

  /** `uploadFile`: true exactly when the service answered 201, false for any other status. */
  function UploadFile(credentials: JString, container: string, filePath: string, setup: Sdk<()>,
                      status: Sdk<int>): (r: Result<bool, Exception>)
    ensures r == Ok(true) <==> GetBlobURL(credentials, container, filePath, setup).Ok? && status == Returned(CreatedStatus)
    ensures r == Ok(false) <==> GetBlobURL(credentials, container, filePath, setup).Ok? && status.Returned? && status.value != CreatedStatus
    ensures GetBlobURL(credentials, container, filePath, setup).Err? ==> r == Err(GetBlobURL(credentials, container, filePath, setup).error)
    ensures GetBlobURL(credentials, container, filePath, setup).Ok? && status.Threw? ==> r == Err(status.thrown)
  {
    match GetBlobURL(credentials, container, filePath, setup)
    case Err(e) => Err(e)
    case Ok(_) =>
      match status
      case Threw(e) => Err(e)
      case Returned(code) => Ok(code == CreatedStatus)
  }

  /** `downloadFile`: the bytes the SDK collected. */
  function DownloadFile(credentials: JString, container: string, filePath: string, setup: Sdk<()>,
                        body: Sdk<seq<Byte>>): (r: Result<seq<Byte>, Exception>)
    ensures r.Ok? <==> GetBlobURL(credentials, container, filePath, setup).Ok? && body.Returned?
    ensures r.Ok? ==> r.value == body.value
    ensures GetBlobURL(credentials, container, filePath, setup).Err? ==> r == Err(GetBlobURL(credentials, container, filePath, setup).error)
    ensures GetBlobURL(credentials, container, filePath, setup).Ok? && body.Threw? ==> r == Err(body.thrown)
  {
    match GetBlobURL(credentials, container, filePath, setup)
    case Err(e) => Err(e)
    case Ok(_) =>
      match body
      case Threw(e) => Err(e)
      case Returned(bytes) => Ok(bytes)
  }

  /** `delete`: true exactly when the service answered 201. */
  function Delete(credentials: JString, container: string, filePath: string, setup: Sdk<()>,
                  status: Sdk<int>): (r: Result<bool, Exception>)
    ensures r == Ok(true) <==> GetBlobURL(credentials, container, filePath, setup).Ok? && status == Returned(CreatedStatus)
    ensures r == Ok(false) <==> GetBlobURL(credentials, container, filePath, setup).Ok? && status.Returned? && status.value != CreatedStatus
    ensures GetBlobURL(credentials, container, filePath, setup).Err? ==> r == Err(GetBlobURL(credentials, container, filePath, setup).error)
    ensures GetBlobURL(credentials, container, filePath, setup).Ok? && status.Threw? ==> r == Err(status.thrown)
  {
    match GetBlobURL(credentials, container, filePath, setup)
    case Err(e) => Err(e)
    case Ok(_) =>
      match status
      case Threw(e) => Err(e)
      case Returned(code) => Ok(code == CreatedStatus)
  }

  /** `sasURL`: the blob's plain URL, with no signature. */
  function SasURL(credentials: JString, container: string, filePath: string, setup: Sdk<()>): (r: Result<string, Exception>)
    ensures r.Ok? <==> GetBlobURL(credentials, container, filePath, setup).Ok?
    ensures r.Ok? ==> StartsWith(r.value, ServiceURL(GetBlobURL(credentials, container, filePath, setup).value.accountName))
  {
    match GetBlobURL(credentials, container, filePath, setup)
    case Err(e) => Err(e)
    case Ok(u) => Ok(BlobURLText(u))
  }

  // ----- lemmas -----

  /** "<@#@>" has no border: two occurrences never overlap. */
  lemma DelimiterUnbordered()
    ensures Unbordered(CredentialDelimiter)
  {
    var d := CredentialDelimiter;
    forall k | 0 < k < |d|
      ensures d[..k] != d[|d| - k..]
    {
      assert d[..k][k - 1] == d[k - 1] != '>';
      assert d[|d| - k..][k - 1] == d[4] == '>';
    }
  }

  /** Credentials `name<@#@>key` give back the account name and key. */
  lemma CredentialRoundTrip(name: string, key: string, container: string, filename: string)
    requires !Contains(name, CredentialDelimiter) && !Contains(key, CredentialDelimiter) && key != ""
    ensures GetBlobURL(Str(name + CredentialDelimiter + key), container, filename, Returned(()))
         == Ok(BlockBlobURL(name, key, container, filename))
  {
    DelimiterUnbordered();
    SplitTwo(name, key, CredentialDelimiter);
    NoEarlierMatch(name, CredentialDelimiter, key);
  }

  /** Anything after a second "<@#@>" is ignored. */
  lemma {:induction false} ExtraFieldsIgnored(name: string, key: string, rest: string, container: string, filename: string)
    requires !Contains(name, CredentialDelimiter) && !Contains(key, CredentialDelimiter) && key != ""
    ensures GetBlobURL(Str(name + CredentialDelimiter + key + CredentialDelimiter + rest), container, filename, Returned(()))
         == Ok(BlockBlobURL(name, key, container, filename))
  {
    var d := CredentialDelimiter;
    var s := name + d + key + d + rest;
    DelimiterUnbordered();
    assert s == name + d + (key + d + rest);
    FieldsCons(name, d, key + d + rest);
    FieldsCons(key, d, rest);
    NoEarlierMatch(name, d, key + d + rest);
    var xs := Fields(s, d);
    assert xs[..2] == [name, key];
    var r := StripTrailingEmpty(xs);
    assert xs[1] == key != "";
    assert |r| >= 2;
    assert r[0] == xs[0] && r[1] == xs[1];
  }

  /** Credentials without the delimiter fail before anything is contacted. */
  lemma NoDelimiterFails(credentials: string, container: string, filename: string, setup: Sdk<()>)
    requires !Contains(credentials, CredentialDelimiter)
    ensures GetBlobURL(Str(credentials), container, filename, setup) == Err(ArrayIndexOutOfBounds)
  {
  }

  /** Different accounts have different service endpoints. */
  lemma ServiceURLInjective(a: string, b: string)
    requires ServiceURL(a) == ServiceURL(b)
    ensures a == b
  {
  }

  /** The URL `sasURL` answers carries no query: no '?' unless a name has one. */
  lemma SasURLHasNoQuery(credentials: JString, container: string, filePath: string, setup: Sdk<()>)
    requires SasURL(credentials, container, filePath, setup).Ok?
    requires '?' !in GetBlobURL(credentials, container, filePath, setup).value.accountName
    requires '?' !in container + filePath
    ensures '?' !in SasURL(credentials, container, filePath, setup).value
  {
    var u := GetBlobURL(credentials, container, filePath, setup).value;
    assert '?' !in container && '?' !in filePath by {
      assert forall c :: c in container ==> c in container + filePath;
      assert forall c :: c in filePath ==> c in container + filePath;
    }
    assert '?' !in ServiceURL(u.accountName);
    assert BlobURLText(u) == ServiceURL(u.accountName) + "/" + container + "/" + filePath;
  }
}

=== FILE: m3_storage.dfy ===
/** `M3AzureStorageUtils`: upload, download, delete, list, metadata and signed URLs for blobs,
  * against either the storage service or, for a "LOCAL" connection string, a directory of
  * the local file system. What the storage SDK returns or throws is an input (`Sdk<T>`);
  * the local file system is a `LocalFileSystem` the operations read and change. */
module M3Storage {
  import opened Wrappers
  import opened JavaLang
  import opened JavaStrings
  import opened Paths
  import opened Connection
  import opened LocalStore
  import opened Listing
  import opened Sas

  /** A `CloudBlockBlob` reference: where it points and the metadata map it holds in memory. */
  class CloudBlockBlob {
    const container: string
    const name: string
    var metadata: map<string, string>

    constructor (container: string, name: string, metadata: map<string, string>)
      ensures this.container == container && this.name == name && this.metadata == metadata
    {
      this.container := container;
      this.name := name;
      this.metadata := metadata;
    }
  }

  // ----- upload and download -----

  /** `uploadFile`. Locally: create the missing parent directories, then create or overwrite
    * the target with `data`, answering null; this is `Upload` on the file system. Remotely:
    * the blob reference the SDK uploaded to. IOException and the storage exceptions are
    * wrapped in AzureException; the rest pass through. */
  method UploadFile(fs: LocalFileSystem, cs: JString, container: string, filePath: string,
                    data: seq<Byte>, remote: Sdk<CloudBlockBlob>)
    returns (r: Result<Option<CloudBlockBlob>, Exception>)
    requires fs.Valid()
    modifies fs
    ensures fs.Valid()
    ensures !IsLocal(cs) ==> fs.State() == old(fs.State())
    ensures !IsLocal(cs) ==>
      r == match remote
           case Returned(b) => Ok(Some(b))
           case Threw(e) => Err(Translate(e, true))
    ensures IsLocal(cs) ==>
      match LocalTarget(cs, container, filePath)
      case Err(e) => r == Err(e) && fs.State() == old(fs.State())
      case Ok(target) =>
        if ParentIsNull(NewFile(target)) then r == Err(NullPointer) && fs.State() == old(fs.State())
        else match Upload(old(fs.State()), target, data)
             case Ok(after) => r == Ok(None) && fs.State() == after
             case Err(e) => r == Err(Translate(e, true)) && fs.State() == old(fs.State())
  {
    if !IsLocal(cs) {
      match remote
      case Returned(b) => return Ok(Some(b));
      case Threw(e) => return Err(Translate(e, true));
    }
    var target := LocalTarget(cs, container, filePath);
    if target.Err? {
      return Err(target.error);
    }
    r := WriteLocal(fs, target.value, data);
  }

  /** The local branch of `uploadFile` once the target is known: make the missing parent
    * directories, then write the file. */
  method WriteLocal(fs: LocalFileSystem, finalPath: string, data: seq<Byte>)
    returns (r: Result<Option<CloudBlockBlob>, Exception>)
    requires fs.Valid()
    modifies fs
    ensures fs.Valid()
    ensures ParentIsNull(NewFile(finalPath)) ==> r == Err(NullPointer) && fs.State() == old(fs.State())
    ensures !ParentIsNull(NewFile(finalPath)) && Upload(old(fs.State()), finalPath, data).Ok? ==>
              r == Ok(None) && fs.State() == Upload(old(fs.State()), finalPath, data).value
    ensures !ParentIsNull(NewFile(finalPath)) && Upload(old(fs.State()), finalPath, data).Err? ==>
              r == Err(Translate(Upload(old(fs.State()), finalPath, data).error, true)) && fs.State() == old(fs.State())
  {
    var tempFile := NewFile(finalPath);
    if ParentIsNull(tempFile) {
      return Err(NullPointer);
    }
    ghost var s0 := fs.State();
    ghost var p := tempFile.path;
    ParentAncestors(p);
    var parent := ParentFile(tempFile);
    if parent.Some? && !fs.Exists(parent.value) {
      var _ := fs.MakeDirs(parent.value);
    } else if parent.Some? {
      assert Ancestors(p) <= s0.dirs || parent.value.path in s0.files;
    }
    var written := fs.WriteFile(tempFile, data);
    if written.Err? {
      return Err(Translate(written.error, true));
    }
    assert fs.dirs == s0.dirs + Ancestors(p);
    return Ok(None);
  }

  /** `readFileFromFilePath`: a fresh array holding the whole file, or the IOException that
    * opening it throws (FileNotFoundException when there is no regular file there). */
  method ReadFileFromFilePath(fs: LocalFileSystem, file: string) returns (r: Result<array<Byte>, Exception>)
    ensures r.Ok? ==> fresh(r.value)
    ensures match Download(fs.State(), file)
            case Ok(content) => r.Ok? && r.value[..] == content
            case Err(e) => r == Err(e)
  {
    var stream := fs.Open(NewFile(file));
    if stream.Err? {
      return Err(stream.error);
    }
    var content := stream.value;
    var data := new Byte[|content|];
    forall i | 0 <= i < data.Length {
      data[i] := content[i];
    }
    return Ok(data);
  }

  /** `downloadFile`. Locally: `readFileFromFilePath` of the target, so exactly the bytes
    * `Download` finds there. Remotely: the bytes the SDK delivered. */
  method DownloadFile(fs: LocalFileSystem, cs: JString, container: string, filePath: string,
                      remote: Sdk<seq<Byte>>)
    returns (r: Result<array<Byte>, Exception>)
    ensures r.Ok? ==> fresh(r.value)
    ensures !IsLocal(cs) ==>
      match remote
      case Returned(bytes) => r.Ok? && r.value[..] == bytes
      case Threw(e) => r == Err(Translate(e, true))
    ensures IsLocal(cs) ==>
      match LocalTarget(cs, container, filePath)
      case Err(e) => r == Err(e)
      case Ok(target) =>
        match Download(fs.State(), target)
        case Ok(content) => r.Ok? && r.value[..] == content
        case Err(e) => r == Err(Translate(e, true))
  {
    if !IsLocal(cs) {
      match remote
      case Threw(e) =>
        return Err(Translate(e, true));
      case Returned(bytes) =>
        var data := new Byte[|bytes|];
        forall i | 0 <= i < data.Length {
          data[i] := bytes[i];
        }
        return Ok(data);
    }
    var target := LocalTarget(cs, container, filePath);
    if target.Err? {
      return Err(target.error);
    }
    r := ReadFileFromFilePath(fs, target.value);
    if r.Err? {
      r := Err(Translate(r.error, true));
    }
  }

  // ----- delete -----

  /** `delete`. Locally: true exactly when something existed at the target, which is then
    * removed if it is a file or an empty directory; this is `Remove` on the file system.
    * Remotely: what the SDK's delete-if-exists answered. */
  method Delete(fs: LocalFileSystem, cs: JString, container: string, filePath: string, remote: Sdk<bool>)
    returns (r: Result<bool, Exception>)
    requires fs.Valid()
    modifies fs
    ensures fs.Valid()
    ensures !IsLocal(cs) ==> fs.State() == old(fs.State())
    ensures !IsLocal(cs) ==>
      r == match remote
           case Returned(b) => Ok(b)
           case Threw(e) => Err(Translate(e, false))
    ensures IsLocal(cs) ==>
      match LocalTarget(cs, container, filePath)
      case Err(e) => r == Err(e) && fs.State() == old(fs.State())
      case Ok(target) => r == Ok(Remove(old(fs.State()), target).0) && fs.State() == Remove(old(fs.State()), target).1
  {
    if !IsLocal(cs) {
      match remote
      case Returned(b) => return Ok(b);
      case Threw(e) => return Err(Translate(e, false));
    }
    var target := LocalTarget(cs, container, filePath);
    if target.Err? {
      return Err(target.error);
    }
    var localFile := NewFile(target.value);
    var retVal := false;
    ghost var s0 := fs.State();
    if fs.Exists(localFile) {
      var _ := fs.Delete(localFile);
      retVal := true;
    } else {
      RemoveAbsent(s0, target.value);
    }
    return Ok(retVal);
  }

  // ----- listing -----

  /** `order` lists every element of `s` exactly once. */
  ghost predicate Enumerates(order: seq<string>, s: set<string>)
  {
    && (forall q :: q in order <==> q in s)
    && (forall i, j :: 0 <= i < j < |order| ==> order[i] != order[j])
  }

  /** A sequence that lists every element of `s` exactly once is as long as `s` is large. */
  lemma {:induction false} EnumerationSize(order: seq<string>, s: set<string>)
    requires Enumerates(order, s)
    ensures |order| == |s|
    decreases |order|
  {
    if order != [] {
      var last := order[|order| - 1];
      var front := order[..|order| - 1];
      forall q
        ensures q in front <==> q in s - {last}
      {
        if q in front {
          var i :| 0 <= i < |front| && front[i] == q;
          assert order[i] == q && order[|order| - 1] == last;
        }
        if q in s - {last} {
          assert q in order;
          var i :| 0 <= i < |order| && order[i] == q;
          assert i != |order| - 1;
          assert front[i] == q;
        }
      }
      assert forall i, j :: 0 <= i < j < |front| ==> front[i] == order[i] && front[j] == order[j];
      EnumerationSize(front, s - {last});
    }
  }

  /** The record a local listing makes for the entry at path `q`. */
  function LocalRecord(fs: LocalFileSystem, q: string, container: string, containerPath: string): FileDetails
    requires |containerPath| > 0
    reads fs
  {
    FileDetails(Str(container), Str(ListedPath(fs.AbsolutePath(File(q)), containerPath)))
  }

  /** `listFiles`. Locally, with `dir` the target directory: null when nothing exists there;
    * NullPointerException when it is a regular file (it has no entries to stream); otherwise
    * one record per entry of `dir`, in the order `order` in which `listFiles` yields them.
    * Remotely: one record per item the SDK listed, in the same order. */
  method ListFiles(fs: LocalFileSystem, cs: JString, container: string, filePath: string,
                   remote: Sdk<seq<ListItem>>)
    returns (r: Result<Option<seq<FileDetails>>, Exception>, ghost order: seq<string>)
    ensures !IsLocal(cs) ==>
      match remote
      case Threw(e) => r == Err(Translate(e, false))
      case Returned(items) => r.Ok? && r.value.Some? && RemoteListing(r.value.value, items, container)
    ensures IsLocal(cs) ==>
      match LocalContainerPath(cs, container)
      case Err(e) => r == Err(e)
      case Ok(lcp) =>
        var dir := NewFile(lcp + Separator + filePath);
        && (!fs.Exists(dir) ==> r == Ok(None))
        && (dir.path in fs.files && dir.path !in fs.dirs ==> r == Err(NullPointer))
        && (dir.path in fs.dirs ==>
              && r.Ok? && r.value.Some? && |r.value.value| == |order| == |fs.Children(dir)|
              && Enumerates(order, fs.Children(dir))
              && forall i :: 0 <= i < |order| ==> r.value.value[i] == LocalRecord(fs, order[i], container, lcp))
  {
    order := [];
    if !IsLocal(cs) {
      match remote
      case Threw(e) =>
        return Err(Translate(e, false)), order;
      case Returned(items) =>
        var list := ListRemote(items, container);
        return Ok(Some(list)), order;
    }
    var containerPath := LocalContainerPath(cs, container);
    if containerPath.Err? {
      return Err(containerPath.error), order;
    }
    var lcp := containerPath.value;
    var tempFile := NewFile(lcp + Separator + filePath);
    if !fs.Exists(tempFile) {
      return Ok(None), order;
    }
    var entries := fs.ListFiles(tempFile);
    if entries.None? {
      return Err(NullPointer), order;
    }
    var list;
    list, order := ListLocal(fs, tempFile, container, lcp);
    return Ok(Some(list)), order;
  }

  /** The stream over the entries of directory `dir`: one record per entry, in the order
    * `listFiles` yields them. */
  method ListLocal(fs: LocalFileSystem, dir: File, container: string, containerPath: string)
    returns (list: seq<FileDetails>, ghost order: seq<string>)
    requires |containerPath| > 0
    ensures |list| == |order| && Enumerates(order, fs.Children(dir))
    ensures forall i :: 0 <= i < |order| ==> list[i] == LocalRecord(fs, order[i], container, containerPath)
    ensures |list| == |fs.Children(dir)|
    ensures forall q | q in fs.Children(dir) :: LocalRecord(fs, q, container, containerPath) in list
    ensures forall d | d in list :: d.container == Str(container)
  {
    var entries := fs.Children(dir);
    var remaining := entries;
    list := [];
    order := [];
    while remaining != {}
      invariant remaining <= entries
      invariant forall q :: q in order <==> q in entries && q !in remaining
      invariant forall i, j :: 0 <= i < j < |order| ==> order[i] != order[j]
      invariant |list| == |order|
      invariant forall i :: 0 <= i < |order| ==> list[i] == LocalRecord(fs, order[i], container, containerPath)
      decreases |remaining|
    {
      var q :| q in remaining;
      assert q !in order;
      list := list + [LocalRecord(fs, q, container, containerPath)];
      order := order + [q];
      remaining := remaining - {q};
    }
    ListingComplete(fs, list, order, entries, container, containerPath);
  }

  /** A listing that has one record per enumerated entry covers every entry, and all its
    * records carry the container. */
  lemma ListingComplete(fs: LocalFileSystem, list: seq<FileDetails>, order: seq<string>,
                        entries: set<string>, container: string, containerPath: string)
    requires |containerPath| > 0 && |list| == |order| && Enumerates(order, entries)
    requires forall i :: 0 <= i < |order| ==> list[i] == LocalRecord(fs, order[i], container, containerPath)
    ensures |list| == |entries|
    ensures forall q | q in entries :: LocalRecord(fs, q, container, containerPath) in list
    ensures forall d | d in list :: d.container == Str(container)
  {
    EnumerationSize(order, entries);
    forall q | q in entries
      ensures LocalRecord(fs, q, container, containerPath) in list
    {
      var i :| 0 <= i < |order| && order[i] == q;
      assert list[i] == LocalRecord(fs, q, container, containerPath);
    }
  }

  // ----- metadata -----

  /** `uploadMetadata`. A local connection string is refused with IllegalArgumentException,
    * unwrapped. Remotely, every given entry is put into the blob's metadata map (given keys
    * overwrite, the others stay), which is then sent with the SDK's `commit`; the blob is
    * answered. */
  method UploadMetadata(cs: JString, blob: CloudBlockBlob, given: map<string, string>,
                        connect: Sdk<()>, commit: Sdk<()>)
    returns (r: Result<CloudBlockBlob, Exception>)
    modifies blob
    ensures IsLocal(cs) ==> r == Err(IllegalArgument) && blob.metadata == old(blob.metadata)
    ensures !IsLocal(cs) && connect.Threw? ==>
      r == Err(Translate(connect.thrown, false)) && blob.metadata == old(blob.metadata)
    ensures !IsLocal(cs) && connect.Returned? ==> blob.metadata == old(blob.metadata) + given
    ensures !IsLocal(cs) && connect.Returned? ==>
      r == match commit
           case Returned(_) => Ok(blob)
           case Threw(e) => Err(Translate(e, false))
  {
    if IsLocal(cs) {
      return Err(IllegalArgument);
    }
    if connect.Threw? {
      return Err(Translate(connect.thrown, false));
    }
    MergeMetadata(blob, given);
    match commit
    case Returned(_) => return Ok(blob);
    case Threw(e) => return Err(Translate(e, false));
  }

  /** The `forEach` of `uploadMetadata`: put every given entry into the blob's map. */
  method MergeMetadata(blob: CloudBlockBlob, given: map<string, string>)
    modifies blob
    ensures blob.metadata == old(blob.metadata) + given
  {
    var keys := given.Keys;
    ghost var done: set<string> := {};
    while keys != {}
      invariant keys + done == given.Keys && keys !! done
      invariant blob.metadata == old(blob.metadata) + map k | k in done :: given[k]
      decreases keys
    {
      var k :| k in keys;
      blob.metadata := blob.metadata[k := given[k]];
      keys := keys - {k};
      done := done + {k};
    }
    assert (map k | k in done :: given[k]) == given;
  }

  /** `downloadMetadata`: IllegalArgumentException, unwrapped, for a local connection
    * string; otherwise the metadata map the blob reference holds. */
  function DownloadMetadata(cs: JString, blob: CloudBlockBlob, connect: Sdk<()>): (r: Result<map<string, string>, Exception>)
    reads blob
    ensures IsLocal(cs) ==> r == Err(IllegalArgument)
    ensures r.Ok? <==> !IsLocal(cs) && connect.Returned?
    ensures r.Ok? ==> r.value == blob.metadata
    ensures r.Err? && !IsLocal(cs) ==> r.error == Translate(connect.thrown, false)
  {
    if IsLocal(cs) then Err(IllegalArgument)
    else match connect
         case Threw(e) => Err(Translate(e, false))
         case Returned(_) => Ok(blob.metadata)
  }

  // ----- signed URLs -----

  /** `sasURL`. Locally: the base URL with the target as `filepath` parameter. Remotely: the
    * blob's URI, '?', and the signature the SDK made for the blob policy generated at `now`. */
  function SasURL(cs: JString, container: string, filePath: string, now: int,
                  blobUri: Sdk<string>, sign: Policy -> Sdk<string>): (r: Result<string, Exception>)
    ensures IsLocal(cs) ==> r == LocalSasURL(cs, container, filePath)
    ensures !IsLocal(cs) ==> (r.Ok? <==> blobUri.Returned? && sign(BlobPolicy(now)).Returned?)
    ensures !IsLocal(cs) && r.Ok? ==> r.value == SignedURL(blobUri.value, sign(BlobPolicy(now)).value)
    ensures !IsLocal(cs) && blobUri.Threw? ==> r == Err(Translate(blobUri.thrown, false))
    ensures !IsLocal(cs) && blobUri.Returned? && sign(BlobPolicy(now)).Threw? ==>
      r == Err(Translate(sign(BlobPolicy(now)).thrown, false))
  {
    if IsLocal(cs) then LocalSasURL(cs, container, filePath)
    else match blobUri
         case Threw(e) => Err(Translate(e, false))
         case Returned(uri) =>
           match sign(BlobPolicy(now))
           case Threw(e) => Err(Translate(e, false))
           case Returned(sas) => Ok(SignedURL(uri, sas))
  }

  /** `sasDirectoryURL`: as `sasURL`, but remotely it signs the container's URI with the
    * directory policy. */
  function SasDirectoryURL(cs: JString, container: string, filePath: string, now: int,
                           containerUri: Sdk<string>, sign: Policy -> Sdk<string>): (r: Result<string, Exception>)
    ensures IsLocal(cs) ==> r == LocalSasURL(cs, container, filePath)
    ensures !IsLocal(cs) ==> (r.Ok? <==> containerUri.Returned? && sign(DirectoryPolicy(now)).Returned?)
    ensures !IsLocal(cs) && r.Ok? ==> r.value == SignedURL(containerUri.value, sign(DirectoryPolicy(now)).value)
    ensures !IsLocal(cs) && containerUri.Threw? ==> r == Err(Translate(containerUri.thrown, false))
    ensures !IsLocal(cs) && containerUri.Returned? && sign(DirectoryPolicy(now)).Threw? ==>
      r == Err(Translate(sign(DirectoryPolicy(now)).thrown, false))
  {
    if IsLocal(cs) then LocalSasURL(cs, container, filePath)
    else match containerUri
         case Threw(e) => Err(Translate(e, false))
         case Returned(uri) =>
           match sign(DirectoryPolicy(now))
           case Threw(e) => Err(Translate(e, false))
           case Returned(sas) => Ok(SignedURL(uri, sas))
  }

  // ----- properties -----

  /** Locally the two URL operations agree, whatever the SDK would have done. */
  lemma LocalSasURLsAgree(cs: JString, container: string, filePath: string, now: int,
                          uri: Sdk<string>, sign: Policy -> Sdk<string>)
    requires IsLocal(cs)
    ensures SasURL(cs, container, filePath, now, uri, sign) == SasDirectoryURL(cs, container, filePath, now, uri, sign)
  {
  }

  /** A local descriptor starting with its marker is local. */
  lemma DescriptorIsLocal(marker: string, rest: string)
    requires StartsWith(marker, LocalMarker)
    ensures IsLocal(Str(marker + rest))
  {
    assert (marker + rest)[..|LocalMarker|] == marker[..|LocalMarker|];
  }

  /** For a three-field local descriptor both URL operations give
    * `baseURL?filepath=basePath/container/filePath`. */
  lemma LocalSasURLOfThreeFields(marker: string, basePath: string, baseURL: string,
                                 container: string, filePath: string, now: int,
                                 uri: Sdk<string>, sign: Policy -> Sdk<string>)
    requires StartsWith(marker, LocalMarker)
    requires Plain(marker) && Plain(basePath) && Plain(baseURL) && baseURL != ""
    ensures SasURL(Str(LocalDescriptor(marker, basePath, baseURL)), container, filePath, now, uri, sign)
         == Ok(baseURL + "?filepath=" + basePath + "/" + container + "/" + filePath)
  {
    DescriptorIsLocal(marker, FieldDelimiter + basePath + FieldDelimiter + baseURL);
    assert LocalDescriptor(marker, basePath, baseURL) == marker + (FieldDelimiter + basePath + FieldDelimiter + baseURL);
    LocalSasURLOfDescriptor(marker, basePath, baseURL, container, filePath);
  }

  /** With a two-field local descriptor every file operation has a target, but both URL
    * operations fail with an unwrapped ArrayIndexOutOfBoundsException. */
  lemma TwoFieldSasFails(marker: string, basePath: string, container: string, filePath: string,
                         now: int, uri: Sdk<string>, sign: Policy -> Sdk<string>)
    requires StartsWith(marker, LocalMarker)
    requires Plain(marker) && Plain(basePath) && basePath != ""
    ensures LocalTarget(Str(marker + FieldDelimiter + basePath), container, filePath)
         == Ok(basePath + "/" + container + "/" + filePath)
    ensures SasURL(Str(marker + FieldDelimiter + basePath), container, filePath, now, uri, sign)
         == Err(ArrayIndexOutOfBounds)
  {
    DescriptorIsLocal(marker, FieldDelimiter + basePath);
    TwoFieldDescriptor(marker, basePath);
    assert Text(Str(basePath)) + Separator + container + Separator + filePath
        == basePath + "/" + container + "/" + filePath;
  }
}

=== FILE: paths.dfy ===
/** Path strings as `java.io.File` treats them on a Unix-like system: '/' separates
  * names, repeated separators collapse and a trailing separator is dropped. */
module Paths {
  import opened Wrappers

  const Sep: char := '/'

  /** `s` with every run of separators shortened to one. */
  function Collapse(s: string): (r: string)
    ensures |r| <= |s| && (|r| == 0 <==> |s| == 0)
    ensures |s| > 0 ==> r[0] == s[0]
    ensures forall i :: 0 <= i < |r| - 1 ==> !(r[i] == Sep && r[i + 1] == Sep)
  {
    if |s| < 2 then s
    else if s[0] == Sep && s[1] == Sep then Collapse(s[1..])
    else [s[0]] + Collapse(s[1..])
  }

  /** A path in the form `java.io.File` keeps it. */
  predicate IsNormal(p: string)
  {
    && (forall i :: 0 <= i < |p| - 1 ==> !(p[i] == Sep && p[i + 1] == Sep))
    && (|p| > 1 ==> p[|p| - 1] != Sep)
  }

  /** The path `new File(s)` holds. */
  function Normalize(s: string): (p: string)
    ensures IsNormal(p)
    ensures |s| > 0 ==> |p| > 0 && p[0] == s[0]
  {
    var c := Collapse(s);
    if |c| > 1 && c[|c| - 1] == Sep then c[..|c| - 1] else c
  }

  /** The last separator in `p[..k]` that is not its first character. */
  function LastSep(p: string, k: nat): (r: Option<nat>)
    requires k <= |p|
    ensures r.Some? ==> 0 < r.value < k && p[r.value] == Sep
    ensures r.Some? ==> forall j :: r.value < j < k ==> p[j] != Sep
    ensures r.None? ==> forall j :: 0 < j < k ==> p[j] != Sep
  {
    if k <= 1 then None
    else if p[k - 1] == Sep then Some(k - 1)
    else LastSep(p, k - 1)
  }

  /** `getParent()`: the path before the last separator, or None for a single name
    * (whose parent is the root or the working directory, which always exist). */
  function Parent(p: string): Option<string>
  {
    match LastSep(p, |p|)
    case None => None
    case Some(i) => Some(p[..i])
  }

  /** Every directory on the way to `p`: each proper prefix that ends right before a separator. */
  function Ancestors(p: string): set<string>
  {
    set i | 0 < i < |p| && p[i] == Sep :: p[..i]
  }

  // ----- lemmas -----

  /** The ancestors of an ancestor are ancestors. */
  lemma AncestorsOfAncestor(p: string, a: string)
    requires a in Ancestors(p)
    ensures Ancestors(a) <= Ancestors(p) && |a| < |p|
  {
    var i :| 0 < i < |p| && p[i] == Sep && p[..i] == a;
    forall b | b in Ancestors(a)
      ensures b in Ancestors(p)
    {
      var j :| 0 < j < |a| && a[j] == Sep && a[..j] == b;
      assert p[j] == Sep && p[..j] == b;
    }
  }

  /** A path is never its own ancestor. */
  lemma NotOwnAncestor(p: string)
    ensures p !in Ancestors(p)
  {
  }

  /** The ancestors of `p` are its parent and the parent's ancestors. */
  lemma ParentAncestors(p: string)
    ensures Parent(p).None? ==> Ancestors(p) == {}
    ensures Parent(p).Some? ==> Parent(p).value in Ancestors(p)
    ensures Parent(p).Some? ==> Ancestors(p) == Ancestors(Parent(p).value) + {Parent(p).value}
  {
    match LastSep(p, |p|)
    case None =>
    case Some(k) =>
      var q := p[..k];
      forall a | a in Ancestors(p)
        ensures a in Ancestors(q) + {q}
      {
        var i :| 0 < i < |p| && p[i] == Sep && p[..i] == a;
        if i < k {
          assert q[i] == Sep && q[..i] == a;
        }
      }
      AncestorsOfAncestor(p, q);
  }

  /** If `d` is an ancestor of `q`, some path from `d` down to `q` has `d` as its parent:
    * either `q` itself or an ancestor of `q`. */
  lemma ChildOnTheWay(q: string, d: string) returns (c: string)
    requires d in Ancestors(q)
    ensures c == q || c in Ancestors(q)
    ensures Parent(c) == Some(d)
  {
    var i :| 0 < i < |q| && q[i] == Sep && q[..i] == d;
    var k := i + 1;
    while k < |q| && q[k] != Sep
      invariant i < k <= |q|
      invariant forall j :: i < j < k ==> q[j] != Sep
    {
      k := k + 1;
    }
    c := q[..k];
    assert c[i] == Sep && forall j :: i < j < |c| ==> c[j] != Sep;
    var last := LastSep(c, |c|);
    assert last == Some(i);
    assert c[..i] == d;
  }
}

=== FILE: sas.dfy ===
/** The shared-access-signature policies `sasURL` and `sasDirectoryURL` request. The clock is
  * a parameter: `now` is the generation time, in minutes. */
module Sas {

  /** `SharedAccessBlobPermissions`. */
  datatype Permission = Read | Add | Create | Write | Delete | List

  /** A `SharedAccessBlobPolicy`: what it grants and when it stops being valid. */
  datatype Policy = Policy(permissions: set<Permission>, expiry: int)

  /** Both policies expire this many minutes after they are generated. */
  const ExpiryMinutes: int := 30

  /** The policy of a single-blob URL. */
  function BlobPolicy(now: int): (p: Policy)
    ensures p.expiry - now == ExpiryMinutes
    ensures forall x :: x in p.permissions <==> x == Read || x == Write || x == List
  {
    Policy({Read, Write, List}, now + ExpiryMinutes)
  }

  /** The policy of a container ("directory") URL. */
  function DirectoryPolicy(now: int): (p: Policy)
    ensures p.expiry - now == ExpiryMinutes
    ensures BlobPolicy(now).permissions < p.permissions
    ensures Add in p.permissions && Create in p.permissions && Delete in p.permissions
  {
    Policy({Read, Add, Create, Write, Delete, List}, now + ExpiryMinutes)
  }

  /** A signed URL: the resource URI, '?', then the signature's query string. */
  function SignedURL(uri: string, sas: string): (u: string)
    ensures |u| == |uri| + 1 + |sas| && u[..|uri|] == uri && u[|uri|] == '?' && u[|uri| + 1..] == sas
  {
    uri + "?" + sas
  }

  /** With no '?' in the URI, the first '?' of a signed URL separates the URI from the
    * signature, so the URL determines both. */
  lemma SignedURLReadBack(uri: string, sas: string, uri': string, sas': string)
    requires '?' !in uri && '?' !in uri'
    requires SignedURL(uri, sas) == SignedURL(uri', sas')
    ensures uri == uri' && sas == sas'
  {
    assert SignedURL(uri, sas)[..|uri|] == uri;
  }

  /** The directory policy grants strictly more than the blob policy: exactly adding,
    * creating and deleting; both are valid for the same window. */
  lemma DirectoryGrantsMore(now: int)
    ensures BlobPolicy(now).permissions < DirectoryPolicy(now).permissions
    ensures DirectoryPolicy(now).permissions - BlobPolicy(now).permissions == {Add, Create, Delete}
    ensures BlobPolicy(now).expiry == DirectoryPolicy(now).expiry
  {
    assert Add !in BlobPolicy(now).permissions;
  }
}
